=== FILE: README.md ===
# GppRegressor data preparation, modelled in Dafny

This project models the data-cleaning and temporal-join half of `main.py`
from the GppRegressor repository: the three functions that turn a
flux-tower ("site") CSV file and a satellite ("EPIC") CSV file into the
regression table.

* `clean_site` keeps site rows whose start stamp is at or after
  `201501010000` and whose four tracked measurements (columns 17, 18, 34, 43)
  are not the `-9999` sentinel. It shifts both `YYYYMMDDHHmm` stamps
  forward by eight hours and writes six columns. A row on which `int()`,
  `float()` or `datetime()` raises `ValueError` is passed through instead.
* `clean_epic` drops rows containing a `"NaN"` cell. It builds a stamp from
  the five date cells with `zfill(2)` and pairs it with the vegetation index
  `(b - a) / (b + a) * b` of bands 7 and 8. A row whose bands are not
  numeric becomes the literal header `["TIMESTAMP", "NIRV"]`.
* `data_set_gen` copies a three-line header block. It then runs a
  two-cursor merge that pairs EPIC times with site intervals
  `[start, end]`.

Python exceptions are explicit. `Outcomes.Outcome` is either `Done(value)`
or `Raised(fault)`. `ValueError` is caught exactly where `main.py` catches
it. Every other fault ends the run, as it does in Python: an `IndexError`
on a short row, `ZeroDivisionError` from the index, `OverflowError` past
year 9999, and `StopIteration` on a file too short for the header block.

Modules follow the program's structure:

| file | module | models |
|---|---|---|
| outcomes.dfy | `Outcomes` | rows, `Option`, the exceptions, joining the outputs of two runs |
| text.dfy | `Text` | `int()`, `str()` of a natural, clamped slicing, `str.zfill` |
| calendar.dfy | `Calendar` | `datetime(...)` validity, `+ timedelta(hours=8)`, date-time order, a minute clock |
| timestamp.dfy | `Timestamp` | reading and writing `YYYYMMDDHHmm` stamps; the shift |
| site_cleaner.dfy | `SiteCleaner` | `clean_site` |
| epic_cleaner.dfy | `EpicCleaner` | `clean_epic` |
| merger.dfy | `Merger` | the merge loop of `data_set_gen`, as written and corrected |
| assembler.dfy | `Assembler` | the header handling and output of `data_set_gen` |

`float()` on a cell is the parameter `parseFloat: string -> Option<real>`.
`None` stands for its `ValueError`. How `csv.writer` renders a float is the
parameter `show: real -> string`. `int()` is modelled concretely, because
the cutoff and the calendar depend on its exact behaviour.

The merge compares stamps as numbers. `Timestamp.StampOrderIsTimeOrder`
and `Merger.LocateIsChronological` show that, on stamps the cleaners write,
this comparison is a comparison of instants. The instants are measured by
`Calendar.Minutes`, a clock defined independently of the eight-hour shift.

The merge loop terminates because every branch advances the site cursor.
`Merger.MatchesFrom` proves this with `decreases |site| - j`.

Behaviour of `main.py` that the model keeps, though it is easy to miss:

* When an EPIC time is before the interval start, the merge moves both
  cursors (see Findings).
* `zfill(2)` keeps a leading sign in front of the padding. So `"-"`
  becomes `"-0"`, and `"-5"` is left unchanged.
* Short rows end the run:
  * A site row whose start is not an integer and that has 2 to 43 cells
    raises `IndexError` inside the `except` branch.
  * An empty site row raises `IndexError`.
  * A site row with a kept start and at most 43 cells raises `IndexError`,
    unless one of its tracked columns holds `-9999` before the first
    missing or unreadable one.
  * An EPIC row with fewer than 9 cells and no `"NaN"` cell raises
    `IndexError`.
* For non-negative bands the index `(b - a) / (b + a) * b` lies between
  `-b` and `b` (`EpicCleaner.NirvBounded`).

## Model

| member | source | states |
|---|---|---|
| Text.ZFill | main.py:66 | `s.zfill(w)` has length max(w, \|s\|), leaves strings of length w or more unchanged, and otherwise pads with '0' on the left, after a leading sign if there is one |
| Text.ZFillKeepsValue | main.py:66 | zero-filling never changes the integer a cell denotes: if `int(s)` succeeds, `int(s.zfill(w))` gives the same value |
| Text.ParseDecimal | main.py:32-35 | `int(str(n)) == n` for every natural n, so the year and the other parts written by the shift read back as themselves |
| Calendar.AddEightHours | main.py:29-31 | adding `timedelta(hours=8)` to a valid date-time yields a valid date-time, or raises OverflowError and nothing else |
| Calendar.EightHoursLater | main.py:29-31 | the shift moves the independent minute clock forward by exactly 480 minutes, with day, month, year and leap-year rollover; it raises exactly when the result would pass 9999-12-31 23:59 |
| Calendar.EarlierIsSooner | main.py:29-31 | the field order of date-times (year, then month, day, hour, minute) agrees with the minute clock, and the clock is injective on valid date-times |
| Timestamp.EncodeDecode | main.py:32-35 | writing a date-time with a four-digit year as `str(year)` plus four `zfill(2)` parts gives a 12-character stamp that `datetime(int(s[0:4]), ..., int(s[10:12]))` reads back as the same date-time |
| Timestamp.ShiftStamp | main.py:29-42 | reshifting a stamp raises ValueError exactly when its slices do not form a valid date, and otherwise either succeeds or raises OverflowError |
| Timestamp.ShiftStampIsEightHoursLater | main.py:29-42 | a successfully shifted stamp denotes the instant exactly eight hours after the original, and is again 12 characters long when its year has four digits |
| Timestamp.EncodeValue | main.py:29-35 | read back with `int()` as one number, a written stamp is year·10^8 + month·10^6 + day·10^4 + hour·100 + minute |
| Timestamp.StampValueOrder | main.py:89-95 | stamp values are ordered, with `<` and `<=`, exactly as the instants they denote on the minute clock |
| Timestamp.StampOrderIsTimeOrder | main.py:89-95 | for stamps with four-digit years, comparing them as numbers (`<` and `<=`) is the same as comparing the instants they denote on the minute clock |
| Timestamp.ShiftEncoded | main.py:29-42 | shifting a stamp the cleaner wrote gives the stamp of the date-time eight hours later, or OverflowError when `datetime` overflows |
| Timestamp.ShiftExample | main.py:29-42 | "201501010000" becomes "201501010800" |
| Timestamp.YearEndShiftExample | main.py:29-42 | "201512311900" becomes "201601010300", rolling over day, month and year |
| SiteCleaner.NoSentinel | main.py:27-28 | the short-circuit chain of `!= -9999` tests, read left to right, is false exactly when some column holds the sentinel and every column before it exists and parses; it is true exactly when all four parse and none holds the sentinel; it raises only when some column is absent or unparsable, and then it raises ValueError if all columns exist |
| SiteCleaner.CleanSiteRow | main.py:24-48 | a start before the cutoff drops the row; a sentinel in parsable tracked fields drops it, and so does a sentinel that comes before every unparsable field; a kept row becomes (shifted start, shifted end, r[17], r[18], r[34], r[43]); a non-integer start, an unparsable field that comes before every sentinel, or an invalid calendar date give the raw columns 0,1,17,18,34,43, and a single-cell row comes out unchanged; only IndexError and OverflowError escape |
| SiteCleaner.CleanSite | main.py:24-48 | the file-level loop succeeds exactly when no row raises; every row that row cleaning keeps appears in the output; it emits at most one row per input row, and each emitted row has 6 cells or is a 1-cell pass-through |
| SiteCleaner.CleanSiteOne | main.py:24-48 | a one-row file yields exactly what cleaning that row yields: its exception, nothing, or the single cleaned row |
| SiteCleaner.CleanSiteSplits | main.py:24-48 | cleaning is row by row and preserves order: cleaning a + b is cleaning a followed by cleaning b, and a failure in a comes first |
| EpicCleaner.CleanEpicSplits | main.py:57-69 | cleaning is row by row and preserves order: cleaning a + b is cleaning a followed by cleaning b, and a failure in a comes first |
| EpicCleaner.NirvIndex | main.py:65 | the index raises ZeroDivisionError exactly when b + a = 0; otherwise index × (b + a) = (b − a) × b |
| EpicCleaner.NirvBounded | main.py:65 | for non-negative bands with a positive sum, the index lies between −b and b |
| EpicCleaner.NirvExample | main.py:65 | bands a = 2, b = 8 give index 4.8 |
| EpicCleaner.RowIsValid | main.py:58-62 | the scan with `break` leaves `valid_row` true exactly when no cell equals "NaN" |
| EpicCleaner.EpicStampIsSiteFormat | main.py:66 | when the five date cells are the plain decimal text of a date-time, the EPIC stamp equals the stamp the site cleaner writes for it, and it reads back as that date-time |
| EpicCleaner.EpicStampKeepsParts | main.py:66 | each padded date cell denotes the same integer as the original and is 2 characters long unless it was longer |
| EpicCleaner.CleanEpicRow | main.py:57-69 | a row with a "NaN" cell yields nothing; with fewer than 9 cells it raises IndexError; unparsable bands give ["TIMESTAMP","NIRV"]; parsable bands that sum to zero raise ZeroDivisionError; otherwise the output is [stamp from r[0..4], the index of r[7], r[8]] |
| EpicCleaner.CleanEpic | main.py:57-69 | the file-level loop succeeds exactly when no row raises; every row that row cleaning keeps appears in the output; it emits at most one 2-cell row per input row |
| EpicCleaner.CleanEpicOne | main.py:57-69 | a one-row file yields exactly what cleaning that row yields: its exception, nothing, or the single cleaned row |
| Merger.Locate | main.py:89-95 | Inside exactly when start ≤ t ≤ end numerically; with both start cells readable, Before exactly when t < start; After only when start ≤ t and t > end; IndexError exactly when a cell on the evaluated path is missing, ValueError exactly when one is unreadable, and nothing else raised |
| Merger.LocateIsChronological | main.py:89-95 | on stamps written by the cleaners, with `float()` giving their integer value, Inside, Before and After mean that the EPIC instant lies in, precedes or follows the site interval |
| Merger.MatchesFrom | main.py:86-97 | every pair the loop emits has its EPIC time inside the site interval; pairs use rows at or after the cursors; both indices strictly increase, so each row is used at most once and in input order; there are at most min(\|site\|, \|epic\|) pairs |
| Merger.MatchesFromSucceeds | main.py:86-97 | on EPIC rows of two cells with readable times and site rows of six cells with readable start and end, in any order, the loop never raises |
| Merger.EarlyRowLosesInterval | main.py:94-97 | when the loop meets an EPIC row before interval j, its result equals the result from (i+1, j+1), so interval j is never paired, even when EPIC row i+1 lies in it; the intended merge pairs that row with interval j first |
| Merger.GapLosesInterval | main.py:88-97 | for any EPIC times t0, t1, t2 and intervals I0, I1 with t0 in I0, t1 strictly between I0 and I1, and t2 in I1, the loop as written emits only (t0, I0), while the reference and the intended merge emit (t0, I0) and (t2, I1) |
| Merger.GapSkipsNextInterval | main.py:94-97 | for intervals [100,200], [300,400] and EPIC times 150, 250, 350, the loop as written emits only the pair (150, [100,200]) |
| Merger.LateRowSkipsStaleInterval | main.py:94-97 | for intervals [100,200], [300,400] and the single EPIC time 350, the loop as written passes [100,200] without consuming 350 and emits (350, [300,400]) |
| Merger.SharedIntervalSkipsNext | main.py:88-97 | for intervals [100,200], [300,400] and EPIC times 150, 160, 350, the loop as written emits only (150, [100,200]): 160 lies before [300,400], so both cursors move and 350 is never compared |
| Merger.IntendedPairsBoth | main.py:94-97 | on the same input, the corrected loop emits both (150, [100,200]) and (350, [300,400]) |
| Merger.IntendedIsComplete | main.py:88-97 | with ascending EPIC times and ordered, non-touching intervals, the corrected loop pairs every interval that contains an EPIC time with the earliest such time, and emits nothing else |
| Merger.WrittenPairsExpected | main.py:86-97 | on well-formed rows with ordered, non-touching intervals, every pair the loop as written emits is a reference pair: the interval with the earliest EPIC time inside it |
| Merger.WrittenIsCompleteWhenOwn | main.py:86-97 | on well-formed rows with ordered, non-touching intervals, when every EPIC row lies in an interval of its own, later rows in later intervals, the loop as written moves only the site cursor past each stale interval and emits exactly the reference pairs |
| Assembler.Insert | main.py:84 | `list.insert(5, x)` grows the row by one, puts x at position min(5, len), and keeps the cells before and after in order |
| Assembler.DataSetGen | main.py:80-97 | a missing header line raises StopIteration; otherwise the run fails exactly when the merge fails; the output starts with site lines 1 and 2 verbatim and line 3 with "NIRV" inserted at position 5; every later line is `site[0..4], epic[1], site[5]` for a merge pair whose EPIC time lies in the site interval |
| Assembler.DataSetGenSucceeds | main.py:80-97 | with both header blocks present and well-formed data rows after them, the run produces its file |

## Findings

| source | as written | input that shows it | evidently intended | confidence | as-written member | corrected member |
|---|---|---|---|---|---|---|
| main.py:94-97 | when the EPIC time is before the interval start, both cursors advance, because `site_row = next(site_reader, None)` sits outside the inner `if` | site intervals [100,200], [300,400] and EPIC times 150, 250, 350 give 1 row; so do 150, 160, 350, two times in one interval | advance only the EPIC cursor, which gives 2 rows: every interval that contains an EPIC time is matched | medium; not executed | Merger.GapLosesInterval | Merger.IntendedIsComplete |

`Merger.MatchesFrom` is the loop as written. `Merger.GapLosesInterval` shows
the loss for every input of the shape in the table, and
`Merger.GapSkipsNextInterval` shows it on the concrete numbers, and
`Merger.SharedIntervalSkipsNext` shows that two EPIC times in one interval
lose the next interval too. On ordered, non-touching intervals where
every EPIC time has an interval of its own,
`Merger.WrittenIsCompleteWhenOwn` proves that the loop as written is
complete.
`Merger.IntendedFrom` is the corrected loop, and `Merger.IntendedIsComplete` proves its completeness
against the reference `Merger.Expected`. `Merger.WrittenPairsExpected`
shows that, on non-touching intervals, the loop as written emits only
reference pairs, so it loses pairs but never invents one. `Assembler.DataSetGen` uses the
as-written loop on purpose, because it models the file `main.py`
actually produces.

## Left out

- CSV reading, writing and quoting, and the hard-coded file names (main.py:20-23, 53-56, 74-79). These are I/O. Rows are `seq<string>` in and out, and a written row is assumed to read back unchanged.
- Python's `float()` grammar (exponents, `inf`, `nan`, whitespace) and float-to-text rendering. Both are parameters. NaN and infinities, with their unusual comparisons, are therefore not modelled.
- Floating-point rounding in the index. `EpicCleaner.NirvIndex` computes in exact reals.
- The whitespace, underscore and non-ASCII-digit forms that `int()` also accepts. `Text.ParseInt` takes an optional sign and ASCII digits.
- Output already written before a run fails. A failed run is a single `Raised(fault)`.
- Nothing in `main.py` calls the three functions in sequence, so the model has no pipeline function.
- The machine-learning part (main.py:104-140). It wraps pandas, scikit-learn and matplotlib and works on floats, plots and parallel jobs.
- Timestamp.ShiftStampIsEightHoursLater: states the 12-character length and the read-back only for shifted years of four digits. For years below 1000, `str(year)` is shorter and the stamp no longer reads back.
- Merger.IntendedIsComplete: assumes the intervals do not touch (each end before the next start). Contiguous half-hour intervals that share a boundary are outside the theorem.
- Merger.WrittenIsCompleteWhenOwn: assumes the intervals do not touch, for the same reason as `Merger.IntendedIsComplete`. On touching intervals `Merger.Expected` pairs a boundary time with both intervals, which no merge that uses each row once can do.

=== FILE: assembler.dfy ===
/** `data_set_gen` (main.py:72-97): the fixed header handling over the two
    cleaned files followed by the merge loop as written. */
module Assembler {
  import opened Outcomes
  import opened Merger

  /** Name of the column the merge adds, and where the header gets it. */
  const IndexName := "NIRV"
  const IndexPosition := 5

  /** Python's `list.insert(at, cell)`: a position past the end appends. */
  function Insert(row: Row, at: nat, cell: string): (r: Row)
    ensures |r| == |row| + 1
    ensures var p := if at < |row| then at else |row|;
            r[p] == cell && r[..p] == row[..p] && r[p + 1..] == row[p..]
  {
    var p := if at < |row| then at else |row|;
    row[..p] + [cell] + row[p..]
  }

  /** The output file of `data_set_gen`, given the rows of the cleaned EPIC
      file and of the cleaned site file.  The first EPIC row (the
      substituted header) is skipped, the first three site rows become the
      header block, and the rest go through the merge. */
  function DataSetGen(parseFloat: string -> Option<real>, epic: seq<Row>, site: seq<Row>)
    : (out: Outcome<seq<Row>>)
    // next() on a file too short for the header block stops the run.
    ensures |epic| == 0 || |site| < 3 ==> out == Raised(StopIteration)
    // Otherwise the run fails exactly when the merge loop fails.
    ensures |epic| > 0 && |site| >= 3 ==>
              out.Done? == MatchesFrom(parseFloat, epic[1..], site[3..], 0, 0).Done?
    // Header block: two site lines verbatim, the third with the index column inserted.
    ensures out.Done? ==>
              && |out.value| >= 3
              && out.value[0] == site[0] && out.value[1] == site[1]
              && |out.value[2]| == |site[2]| + 1
              && (|site[2]| >= IndexPosition ==>
                    && out.value[2][IndexPosition] == IndexName
                    && out.value[2][..IndexPosition] == site[2][..IndexPosition]
                    && out.value[2][IndexPosition + 1..] == site[2][IndexPosition..])
    // Data rows: one per merge pair, site fields around the EPIC index, and
    // the EPIC time inside the site interval.
    ensures out.Done? ==>
              var e, s := epic[1..], site[3..];
              var ms := MatchesFrom(parseFloat, e, s, 0, 0).value;
              && |out.value| == 3 + |ms|
              && |ms| <= |e| && |ms| <= |s|
              && forall k | 0 <= k < |ms| ::
                   var er, sr := e[ms[k].epic], s[ms[k].site];
                   && out.value[3 + k] == [sr[0], sr[1], sr[2], sr[3], sr[4], er[1], sr[5]]
                   && Within(parseFloat, er, sr)
  {
    if |epic| == 0 || |site| < 3 then Raised(StopIteration)
    else
      var header := [site[0], site[1], Insert(site[2], IndexPosition, IndexName)];
      match MatchesFrom(parseFloat, epic[1..], site[3..], 0, 0)
      case Raised(f) => Raised(f)
      case Done(ms) => Done(header + MergeRows(epic[1..], site[3..], ms))
  }

  /** With both header blocks present and well-formed data rows, the run
      produces its file: no exception escapes the merge. */
  lemma DataSetGenSucceeds(parseFloat: string -> Option<real>, epic: seq<Row>, site: seq<Row>)
    requires |epic| > 0 && |site| >= 3
    requires EpicReady(parseFloat, epic[1..]) && SiteReady(parseFloat, site[3..])
    ensures DataSetGen(parseFloat, epic, site).Done?
  {
    MatchesFromSucceeds(parseFloat, epic[1..], site[3..], 0, 0);
  }

}

=== FILE: calendar.dfy ===
/** The part of Python's `datetime` the site cleaner uses: constructing a
    date-time from year, month, day, hour and minute (with its range checks)
    and adding `timedelta(hours=8)` with day, month and year rollover. */
module Calendar {
  import opened Outcomes

  datatype DateTime = DateTime(year: int, month: int, day: int, hour: int, minute: int)

  const MinYear := 1
  const MaxYear := 9999

  /** The time-zone correction applied to every site timestamp, in minutes. */
  const ShiftMinutes := 8 * 60

  /** Gregorian leap-year rule. */
  predicate IsLeap(y: int) {
    y % 4 == 0 && (y % 100 != 0 || y % 400 == 0)
  }

  function DaysInMonth(y: int, m: int): int
    requires 1 <= m <= 12
  {
    if m == 2 then (if IsLeap(y) then 29 else 28)
    else if m == 4 || m == 6 || m == 9 || m == 11 then 30
    else 31
  }

  function DaysInYear(y: int): int {
    if IsLeap(y) then 366 else 365
  }

  /** The ranges `datetime.datetime(...)` accepts; anything else is a ValueError. */
  predicate Valid(dt: DateTime) {
    && MinYear <= dt.year <= MaxYear
    && 1 <= dt.month <= 12
    && 1 <= dt.day <= DaysInMonth(dt.year, dt.month)
    && 0 <= dt.hour < 24
    && 0 <= dt.minute < 60
  }

  /** `datetime.datetime(y, m, d, h, mi)`, with ValueError as None. */
  function MakeDateTime(y: int, m: int, d: int, h: int, mi: int): (r: Option<DateTime>)
    ensures r.Some? ==> Valid(r.value)
  {
    var dt := DateTime(y, m, d, h, mi);
    if Valid(dt) then Some(dt) else None
  }

  /** `dt + timedelta(hours=8)`: same day when the hour stays below 24,
      otherwise the next day, rolling over the month and the year.  A result
      past 9999-12-31 raises OverflowError. */
  function AddEightHours(dt: DateTime): (r: Outcome<DateTime>)
    requires Valid(dt)
    ensures r.Done? ==> Valid(r.value)
    ensures r.Raised? ==> r.fault == OverflowError
  {
    var h := dt.hour + 8;
    if h < 24 then Done(dt.(hour := h))
    else if dt.day < DaysInMonth(dt.year, dt.month) then
      Done(dt.(day := dt.day + 1, hour := h - 24))
    else if dt.month < 12 then
      Done(dt.(month := dt.month + 1, day := 1, hour := h - 24))
    else if dt.year < MaxYear then
      Done(DateTime(dt.year + 1, 1, 1, h - 24, dt.minute))
    else Raised(OverflowError)
  }

  // ---------------------------------------------------------------------
  // An independent clock: minutes elapsed since 0001-01-01 00:00
  // ---------------------------------------------------------------------

  /** Days in the years before `y`, counted one year at a time. */
  function DaysBeforeYear(y: int): int
    requires y >= MinYear
    decreases y
  {
    if y == MinYear then 0 else DaysBeforeYear(y - 1) + DaysInYear(y - 1)
  }

  /** Days in the months before `m` of year `y` (m = 13 gives the whole year),
      from the cumulative table of a common year plus the leap day. */
  function DaysBeforeMonth(y: int, m: int): int
    requires 1 <= m <= 13
  {
    [0, 31, 59, 90, 120, 151, 181, 212, 243, 273, 304, 334, 365][m - 1]
    + (if m > 2 && IsLeap(y) then 1 else 0)
  }

  /** Zero-based day number of a date. */
  function DayNumber(dt: DateTime): int
    requires Valid(dt)
  {
    DaysBeforeYear(dt.year) + DaysBeforeMonth(dt.year, dt.month) + dt.day - 1
  }

  function Minutes(dt: DateTime): int
    requires Valid(dt)
  {
    DayNumber(dt) * 1440 + dt.hour * 60 + dt.minute
  }

  /** The last moment `datetime` can represent. */
  const Latest := DateTime(MaxYear, 12, 31, 23, 59)

  lemma MonthStep(y: int, m: int)
    requires 1 <= m <= 12
    ensures DaysBeforeMonth(y, m + 1) == DaysBeforeMonth(y, m) + DaysInMonth(y, m)
  {
  }

  lemma {:induction false} DaysBeforeYearMonotone(y: int, z: int)
    requires MinYear <= y <= z
    ensures DaysBeforeYear(y) <= DaysBeforeYear(z)
    decreases z - y
  {
    if y < z {
      DaysBeforeYearMonotone(y, z - 1);
    }
  }

  /** Every valid date-time lies at or before `Latest`. */
  lemma MinutesBounded(dt: DateTime)
    requires Valid(dt)
    ensures Valid(Latest) && 0 <= Minutes(dt) <= Minutes(Latest)
  {
    var y, m := dt.year, dt.month;
    MonthStep(y, m);
    assert DayNumber(dt) <= DaysBeforeYear(y) + DaysInYear(y) - 1;
    if y < MaxYear {
      DaysBeforeYearMonotone(y + 1, MaxYear);
    }
    assert DayNumber(dt) <= DayNumber(Latest);
    DaysBeforeYearMonotone(MinYear, y);
  }

  /** `AddEightHours` moves the clock forward by exactly eight hours, and it
      fails exactly when that would pass the last representable minute. */
  lemma EightHoursLater(dt: DateTime)
    requires Valid(dt)
    ensures AddEightHours(dt).Done? <==> Minutes(dt) + ShiftMinutes <= Minutes(Latest)
    ensures AddEightHours(dt).Done? ==> Minutes(AddEightHours(dt).value) == Minutes(dt) + ShiftMinutes
  {
    var r := AddEightHours(dt);
    if r.Done? {
      var t := r.value;
      if dt.hour + 8 >= 24 {
        assert DayNumber(t) == DayNumber(dt) + 1 by {
          if dt.day == DaysInMonth(dt.year, dt.month) {
            MonthStep(dt.year, dt.month);
            if dt.month == 12 {
              assert DaysBeforeYear(t.year) == DaysBeforeYear(dt.year) + DaysInYear(dt.year);
            }
          }
        }
      }
      MinutesBounded(t);
    } else {
      assert DayNumber(dt) == DayNumber(Latest);
    }
  }


  // ---------------------------------------------------------------------
  // Field order is time order
  // ---------------------------------------------------------------------

  /** `a < b` on Python date-times: lexicographic on year, month, day, hour, minute. */
  predicate Earlier(a: DateTime, b: DateTime) {
    || a.year < b.year
    || (a.year == b.year && a.month < b.month)
    || (a.year == b.year && a.month == b.month && a.day < b.day)
    || (a.year == b.year && a.month == b.month && a.day == b.day && a.hour < b.hour)
    || (a.year == b.year && a.month == b.month && a.day == b.day && a.hour == b.hour && a.minute < b.minute)
  }

  /** A date's day number lies within the days of its year. */
  lemma DayInYear(dt: DateTime)
    requires Valid(dt)
    ensures DaysBeforeYear(dt.year) <= DayNumber(dt) < DaysBeforeYear(dt.year + 1)
  {
    MonthStep(dt.year, dt.month);
  }

  /** Within one year, a later month starts after every day of an earlier one. */
  lemma MonthsOrdered(y: int, m: int, n: int)
    requires 1 <= m < n <= 12
    ensures DaysBeforeMonth(y, m) + DaysInMonth(y, m) <= DaysBeforeMonth(y, n)
  {
    MonthStep(y, m);
  }

  /** Field order and the minute clock agree: one date-time is earlier than
      another exactly when it has fewer minutes, and the clock tells
      distinct date-times apart. */
  lemma EarlierIsSooner(a: DateTime, b: DateTime)
    requires Valid(a) && Valid(b)
    ensures Earlier(a, b) <==> Minutes(a) < Minutes(b)
    ensures Minutes(a) == Minutes(b) <==> a == b
  {
    if Earlier(a, b) {
      SoonerWhenEarlier(a, b);
    } else if Earlier(b, a) {
      SoonerWhenEarlier(b, a);
    }
  }

  lemma SoonerWhenEarlier(a: DateTime, b: DateTime)
    requires Valid(a) && Valid(b) && Earlier(a, b)
    ensures Minutes(a) < Minutes(b)
  {
    if a.year < b.year || a.month < b.month || a.day < b.day {
      assert DayNumber(a) < DayNumber(b) by {
        if a.year < b.year {
          DayInYear(a);
          DayInYear(b);
          DaysBeforeYearMonotone(a.year + 1, b.year);
        } else if a.month < b.month {
          MonthsOrdered(a.year, a.month, b.month);
        }
      }
      var da, db := DayNumber(a), DayNumber(b);
      assert da * 1440 + 1440 <= db * 1440;
    }
  }

}

=== FILE: epic_cleaner.dfy ===
/** `clean_epic` (main.py:52-69): the per-row cleaning of the satellite
    (EPIC) file and the file-level loop around it.

    `parseFloat` stands for Python's `float()` on a cell (None is its
    ValueError) and `show` for the text `csv.writer` writes for a float. */
module EpicCleaner {
  import opened Outcomes
  import opened Text
  import Calendar
  import Timestamp

  /** A row holding this exact cell anywhere is discarded. */
  const MissingMarker := "NaN"

  /** What a row without missing cells but with non-numeric bands becomes. */
  const Header: Row := ["TIMESTAMP", "NIRV"]

  /** Columns of the two spectral bands: red (a) and near-infrared (b). */
  const RedColumn := 7
  const NirColumn := 8

  /** The vegetation index (b - a) / (b + a) * b of main.py:65 in exact real
      arithmetic; a zero denominator raises ZeroDivisionError, which nothing
      in `clean_epic` catches. */
  function NirvIndex(red: real, nir: real): (r: Outcome<real>)
    ensures r.Raised? <==> nir + red == 0.0
    ensures r.Raised? ==> r.fault == ZeroDivisionError
    ensures r.Done? ==> r.value * (nir + red) == (nir - red) * nir
  {
    if nir + red == 0.0 then Raised(ZeroDivisionError)
    else Done((nir - red) / (nir + red) * nir)
  }

  /** For non-negative bands the normalised difference lies in [-1, 1], so
      the index lies between -nir and nir. */
  lemma NirvBounded(red: real, nir: real)
    requires red >= 0.0 && nir >= 0.0 && nir + red > 0.0
    ensures -nir <= NirvIndex(red, nir).value <= nir
  {
    var sum := nir + red;
    var q := (nir - red) / sum;
    assert q * sum == nir - red;
    assert (1.0 - q) * sum == 2.0 * red;
    assert (1.0 + q) * sum == 2.0 * nir;
    NonNegativeFactor(1.0 - q, sum);
    NonNegativeFactor(1.0 + q, sum);
    NonNegativeProduct(1.0 - q, nir);
    NonNegativeProduct(1.0 + q, nir);
    assert NirvIndex(red, nir).value == q * nir;
  }

  lemma NonNegativeFactor(x: real, s: real)
    requires s > 0.0 && x * s >= 0.0
    ensures x >= 0.0
  {
  }

  lemma NonNegativeProduct(x: real, y: real)
    requires x >= 0.0 && y >= 0.0
    ensures x * y >= 0.0
  {
  }

  /** The worked example: bands 2 and 8 give index 4.8. */
  lemma NirvExample()
    ensures NirvIndex(2.0, 8.0) == Done(4.8)
  {
  }

  /** The scan of main.py:58-62: `valid_row` stays true unless some cell is
      exactly the missing marker, and the loop stops at the first such cell. */
  method RowIsValid(r: Row) returns (valid: bool)
    ensures valid <==> MissingMarker !in r
  {
    valid := true;
    var k := 0;
    while k < |r|
      invariant 0 <= k <= |r|
      invariant MissingMarker !in r[..k]
      invariant valid
    {
      if r[k] == MissingMarker {
        valid := false;
        break;
      }
      k := k + 1;
    }
    assert valid ==> r[..k] == r;
  }

  /** `r[0] + r[1].zfill(2) + r[2].zfill(2) + r[3].zfill(2) + r[4].zfill(2)`
      (main.py:66): pure string work, no integer conversion. */
  function EpicStamp(r: Row): string
    requires |r| >= 5
  {
    r[0] + ZFill(r[1], 2) + ZFill(r[2], 2) + ZFill(r[3], 2) + ZFill(r[4], 2)
  }

  /** When the five date cells are the plain decimal text of a date-time,
      the EPIC stamp is exactly the stamp format the site cleaner writes,
      and with a four-digit year it reads back as that date-time. */
  lemma EpicStampIsSiteFormat(r: Row, dt: Calendar.DateTime)
    requires |r| >= 5 && Calendar.Valid(dt)
    requires r[0] == Decimal(dt.year) && r[1] == Decimal(dt.month) && r[2] == Decimal(dt.day)
    requires r[3] == Decimal(dt.hour) && r[4] == Decimal(dt.minute)
    ensures EpicStamp(r) == Timestamp.Encode(dt)
    ensures dt.year >= 1000 ==> Timestamp.Decode(EpicStamp(r)) == Some(dt)
  {
    if dt.year >= 1000 {
      Timestamp.EncodeDecode(dt);
    }
  }

  /** Padding a date cell never changes the number it denotes. */
  lemma EpicStampKeepsParts(r: Row, k: nat)
    requires |r| >= 5 && 1 <= k <= 4 && ParseInt(r[k]).Some?
    ensures ParseInt(ZFill(r[k], 2)) == ParseInt(r[k])
    ensures |ZFill(r[k], 2)| == if |r[k]| >= 2 then |r[k]| else 2
  {
    ZFillKeepsValue(r[k], 2);
  }

  /** The body of the `try` block, main.py:65-67. */
  function TryRow(parseFloat: string -> Option<real>, show: real -> string, r: Row): Outcome<Row> {
    if |r| <= NirColumn then Raised(IndexError)
    else
      match (parseFloat(r[NirColumn]), parseFloat(r[RedColumn]))
      case (None, _) => Raised(ValueError)
      case (_, None) => Raised(ValueError)
      case (Some(nir), Some(red)) =>
        match NirvIndex(red, nir)
        case Raised(f) => Raised(f)
        case Done(v) => Done([EpicStamp(r), show(v)])
  }

  /** One row of `clean_epic`.  None means the row is dropped. */
  function CleanEpicRow(parseFloat: string -> Option<real>, show: real -> string, r: Row)
    : (out: Outcome<Option<Row>>)
    ensures MissingMarker in r ==> out == Done(None)
    ensures MissingMarker !in r && |r| <= NirColumn ==> out == Raised(IndexError)
    ensures (&& MissingMarker !in r && |r| > NirColumn
             && (parseFloat(r[NirColumn]).None? || parseFloat(r[RedColumn]).None?))
            ==> out == Done(Some(Header))
    ensures (&& MissingMarker !in r && |r| > NirColumn
             && parseFloat(r[NirColumn]).Some? && parseFloat(r[RedColumn]).Some?)
            ==> var nir, red := parseFloat(r[NirColumn]).value, parseFloat(r[RedColumn]).value;
                && (nir + red == 0.0 ==> out == Raised(ZeroDivisionError))
                && (nir + red != 0.0 ==> out == Done(Some([EpicStamp(r), show(NirvIndex(red, nir).value)])))
    ensures out.Done? && out.value.Some? ==> |out.value.value| == 2
  {
    if MissingMarker in r then Done(None)
    else
      match TryRow(parseFloat, show, r)
      case Raised(ValueError) => Done(Some(Header))
      case Raised(f) => Raised(f)
      case Done(row) => Done(Some(row))
  }

  /** The loop `for r in source` of `clean_epic`. */
  function CleanEpic(parseFloat: string -> Option<real>, show: real -> string, rows: seq<Row>)
    : (out: Outcome<seq<Row>>)
    ensures out.Done? <==> forall k | 0 <= k < |rows| :: CleanEpicRow(parseFloat, show, rows[k]).Done?
    ensures out.Done? ==> |out.value| <= |rows|
    ensures out.Done? ==> forall k | 0 <= k < |out.value| :: |out.value[k]| == 2
    // Every row a row cleaning keeps reaches the file.
    ensures out.Done? ==>
              forall k, x | 0 <= k < |rows| && CleanEpicRow(parseFloat, show, rows[k]) == Done(Some(x)) :: x in out.value
    decreases |rows|
  {
    if rows == [] then Done([])
    else
      match CleanEpicRow(parseFloat, show, rows[0])
      case Raised(f) => Raised(f)
      case Done(o) =>
        match CleanEpic(parseFloat, show, rows[1..])
        case Raised(f) => Raised(f)
        case Done(rest) => Done(Emitted(o) + rest)
  }

  /** A one-row file holds what cleaning that row gives. */
  lemma CleanEpicOne(parseFloat: string -> Option<real>, show: real -> string, r: Row)
    ensures CleanEpicRow(parseFloat, show, r).Raised? ==>
              CleanEpic(parseFloat, show, [r]) == Raised(CleanEpicRow(parseFloat, show, r).fault)
    ensures CleanEpicRow(parseFloat, show, r).Done? ==>
              CleanEpic(parseFloat, show, [r]) == Done(Emitted(CleanEpicRow(parseFloat, show, r).value))
  {
    assert [r][1..] == [];
    var o := CleanEpicRow(parseFloat, show, r);
    if o.Done? {
      assert Emitted(o.value) + [] == Emitted(o.value);
    }
  }

  /** Cleaning is row by row and order preserving: the output for a file
      split in two is the output for the first part followed by the output
      for the second. */
  lemma {:induction false} CleanEpicSplits(parseFloat: string -> Option<real>, show: real -> string,
                                           a: seq<Row>, b: seq<Row>)
    ensures CleanEpic(parseFloat, show, a + b) == Then(CleanEpic(parseFloat, show, a), CleanEpic(parseFloat, show, b))
    decreases |a|
  {
    if a == [] {
      assert a + b == b;
      var whole := CleanEpic(parseFloat, show, b);
      if whole.Done? {
        assert [] + whole.value == whole.value;
      }
    } else {
      var ab := a + b;
      assert ab[0] == a[0];
      assert ab[1..] == a[1..] + b;
      CleanEpicSplits(parseFloat, show, a[1..], b);
      var head := CleanEpicRow(parseFloat, show, a[0]);
      var tail := CleanEpic(parseFloat, show, a[1..]);
      var whole := CleanEpic(parseFloat, show, b);
      assert CleanEpic(parseFloat, show, ab[1..]) == Then(tail, whole);
      if head.Done? && tail.Done? && whole.Done? {
        assert Emitted(head.value) + (tail.value + whole.value)
            == (Emitted(head.value) + tail.value) + whole.value;
      }
    }
  }

}

=== FILE: merger.dfy ===
/** The two-cursor merge of `data_set_gen` (main.py:86-97): cleaned EPIC
    rows `[timestamp, index]` are matched against cleaned site rows
    `[start, end, f1, f2, f3, f4]` by comparing `float()` of the stamps.

    Cursors are the indices `i` (EPIC) and `j` (site); `None` from
    `next(reader, None)` is the cursor reaching the end of its sequence. */
module Merger {
  import opened Outcomes
  import Text
  import Calendar
  import Timestamp

  /** An EPIC row paired with a site row, by position in each sequence. */
  datatype Match = Match(epic: nat, site: nat)

  /** Where an EPIC time falls relative to a site interval. */
  datatype Position = Before | Inside | After

  /** The EPIC time lies in the closed site interval, all three read as floats. */
  predicate Within(parseFloat: string -> Option<real>, e: Row, s: Row) {
    && |e| > 0 && |s| > 1
    && parseFloat(e[0]).Some? && parseFloat(s[0]).Some? && parseFloat(s[1]).Some?
    && parseFloat(s[0]).value <= parseFloat(e[0]).value <= parseFloat(s[1]).value
  }

  /** The comparisons of main.py:89 and main.py:95, evaluated as Python does:
      the end column is read only when the EPIC time is not before the start,
      and a missing or unparsable stamp raises out of the loop. */
  function Locate(parseFloat: string -> Option<real>, e: Row, s: Row): (p: Outcome<Position>)
    ensures p == Done(Inside) <==> Within(parseFloat, e, s)
    // Both start cells readable: Before exactly when the time precedes the start.
    ensures (|e| > 0 && |s| > 0 && parseFloat(e[0]).Some? && parseFloat(s[0]).Some?) ==>
              (p == Done(Before) <==> parseFloat(e[0]).value < parseFloat(s[0]).value)
    ensures p == Done(Before) ==>
              && |e| > 0 && |s| > 0 && parseFloat(e[0]).Some? && parseFloat(s[0]).Some?
              && parseFloat(e[0]).value < parseFloat(s[0]).value
    ensures p == Done(After) ==>
              && |e| > 0 && |s| > 1 && parseFloat(e[0]).Some? && parseFloat(s[0]).Some? && parseFloat(s[1]).Some?
              && parseFloat(s[0]).value <= parseFloat(e[0]).value
              && parseFloat(e[0]).value > parseFloat(s[1]).value
    // A missing cell on the evaluated path is an IndexError ...
    ensures (p == Raised(IndexError)) <==>
              || |e| == 0
              || (parseFloat(e[0]).Some? && |s| == 0)
              || (&& parseFloat(e[0]).Some? && parseFloat(s[0]).Some?
                  && parseFloat(e[0]).value >= parseFloat(s[0]).value && |s| < 2)
    // ... an unreadable one a ValueError, and nothing else is raised.
    ensures (p == Raised(ValueError)) <==>
              || (|e| > 0 && parseFloat(e[0]).None?)
              || (|e| > 0 && parseFloat(e[0]).Some? && |s| > 0 && parseFloat(s[0]).None?)
              || (&& |e| > 0 && parseFloat(e[0]).Some? && |s| > 1 && parseFloat(s[0]).Some?
                  && parseFloat(e[0]).value >= parseFloat(s[0]).value && parseFloat(s[1]).None?)
    ensures p.Raised? ==> p.fault == IndexError || p.fault == ValueError
  {
    if |e| == 0 then Raised(IndexError)
    else if parseFloat(e[0]).None? then Raised(ValueError)
    else if |s| == 0 then Raised(IndexError)
    else if parseFloat(s[0]).None? then Raised(ValueError)
    else if parseFloat(e[0]).value < parseFloat(s[0]).value then Done(Before)
    else if |s| < 2 then Raised(IndexError)
    else if parseFloat(s[1]).None? then Raised(ValueError)
    else if parseFloat(e[0]).value <= parseFloat(s[1]).value then Done(Inside)
    else Done(After)
  }

  /** The merged row of main.py:90-91: site start, end and first three
      fields, then the EPIC index, then the fourth site field. */
  function JoinRow(e: Row, s: Row): Row
    requires |e| >= 2 && |s| >= 6
  {
    [s[0], s[1], s[2], s[3], s[4], e[1], s[5]]
  }

  function Prepend(m: Match, rest: Outcome<seq<Match>>): Outcome<seq<Match>> {
    match rest
    case Raised(f) => Raised(f)
    case Done(ms) => Done([m] + ms)
  }

  /** The pairs are real matches drawn from the unread parts of both
      sequences, each row used at most once, in input order on both sides. */
  predicate Sound(parseFloat: string -> Option<real>, epic: seq<Row>, site: seq<Row>, i: nat, j: nat, ms: seq<Match>) {
    && (forall k | 0 <= k < |ms| ::
          && i <= ms[k].epic < |epic| && j <= ms[k].site < |site|
          && |epic[ms[k].epic]| >= 2 && |site[ms[k].site]| >= 6
          && Within(parseFloat, epic[ms[k].epic], site[ms[k].site]))
    && (forall a, b | 0 <= a < b < |ms| :: ms[a].epic < ms[b].epic && ms[a].site < ms[b].site)
  }

  /** The loop as written, from cursors (i, j).  On a match both cursors
      advance; otherwise the site cursor always advances, and the EPIC
      cursor advances as well when the EPIC time is before the start. */
  function MatchesFrom(parseFloat: string -> Option<real>, epic: seq<Row>, site: seq<Row>, i: nat, j: nat)
    : (out: Outcome<seq<Match>>)
    requires i <= |epic| && j <= |site|
    ensures out.Done? ==> Sound(parseFloat, epic, site, i, j, out.value)
    ensures out.Done? ==> |out.value| <= |site| - j && |out.value| <= |epic| - i
    decreases |site| - j
  {
    if i == |epic| || j == |site| then Done([])
    else
      match Locate(parseFloat, epic[i], site[j])
      case Raised(f) => Raised(f)
      case Done(Inside) =>
        if |epic[i]| < 2 || |site[j]| < 6 then Raised(IndexError)
        else Prepend(Match(i, j), MatchesFrom(parseFloat, epic, site, i + 1, j + 1))
      case Done(Before) => MatchesFrom(parseFloat, epic, site, i + 1, j + 1)
      case Done(After) => MatchesFrom(parseFloat, epic, site, i, j + 1)
  }

  /** Every merged row, in order. */
  function MergeRows(epic: seq<Row>, site: seq<Row>, ms: seq<Match>): (rows: seq<Row>)
    requires forall k | 0 <= k < |ms| ::
               ms[k].epic < |epic| && ms[k].site < |site| && |epic[ms[k].epic]| >= 2 && |site[ms[k].site]| >= 6
    ensures |rows| == |ms|
    ensures forall k | 0 <= k < |ms| :: rows[k] == JoinRow(epic[ms[k].epic], site[ms[k].site])
  {
    seq(|ms|, k requires 0 <= k < |ms| => JoinRow(epic[ms[k].epic], site[ms[k].site]))
  }

  /** When `float()` of each stamp is the number it denotes (as it is for
      the stamps the cleaners write, by `Timestamp.EncodeValue`), the
      comparisons of the loop are comparisons of instants: Inside means the
      EPIC instant lies in the site interval, Before that it precedes the
      start, After that it follows the end and not the start. */
  lemma LocateIsChronological(parseFloat: string -> Option<real>, e: Row, s: Row,
                              t: Calendar.DateTime, start: Calendar.DateTime, end: Calendar.DateTime)
    requires Calendar.Valid(t) && Calendar.Valid(start) && Calendar.Valid(end)
    requires |e| > 0 && parseFloat(e[0]) == Some(Timestamp.StampValue(t) as real)
    requires |s| > 1 && parseFloat(s[0]) == Some(Timestamp.StampValue(start) as real)
    requires parseFloat(s[1]) == Some(Timestamp.StampValue(end) as real)
    ensures (Locate(parseFloat, e, s) == Done(Inside))
            <==> Calendar.Minutes(start) <= Calendar.Minutes(t) <= Calendar.Minutes(end)
    ensures Locate(parseFloat, e, s) == Done(Before) <==> Calendar.Minutes(t) < Calendar.Minutes(start)
    ensures (Locate(parseFloat, e, s) == Done(After))
            <==> Calendar.Minutes(start) <= Calendar.Minutes(t) && Calendar.Minutes(end) < Calendar.Minutes(t)
  {
    Timestamp.StampValueOrder(t, start);
    Timestamp.StampValueOrder(start, t);
    Timestamp.StampValueOrder(t, end);
    Timestamp.StampValueOrder(end, t);
  }

  // ---------------------------------------------------------------------
  // The merge that skips only an early EPIC row
  // ---------------------------------------------------------------------

  /** The corrected loop: an early EPIC row is skipped alone, a late one
      lets only the site cursor move, and a match moves both. */
  function IntendedFrom(parseFloat: string -> Option<real>, epic: seq<Row>, site: seq<Row>, i: nat, j: nat)
    : Outcome<seq<Match>>
    requires i <= |epic| && j <= |site|
    decreases |epic| - i + |site| - j
  {
    if i == |epic| || j == |site| then Done([])
    else
      match Locate(parseFloat, epic[i], site[j])
      case Raised(f) => Raised(f)
      case Done(Inside) =>
        if |epic[i]| < 2 || |site[j]| < 6 then Raised(IndexError)
        else Prepend(Match(i, j), IntendedFrom(parseFloat, epic, site, i + 1, j + 1))
      case Done(Before) => IntendedFrom(parseFloat, epic, site, i + 1, j)
      case Done(After) => IntendedFrom(parseFloat, epic, site, i, j + 1)
  }

  /** Every EPIC row has two cells and a readable time. */
  predicate EpicReady(parseFloat: string -> Option<real>, epic: seq<Row>) {
    forall k | 0 <= k < |epic| :: |epic[k]| >= 2 && parseFloat(epic[k][0]).Some?
  }

  /** Every site row has six cells and a readable start and end. */
  predicate SiteReady(parseFloat: string -> Option<real>, site: seq<Row>) {
    forall k | 0 <= k < |site| ::
      |site[k]| >= 6 && parseFloat(site[k][0]).Some? && parseFloat(site[k][1]).Some?
  }

  function Time(parseFloat: string -> Option<real>, e: Row): real
    requires |e| > 0 && parseFloat(e[0]).Some?
  {
    parseFloat(e[0]).value
  }

  function Start(parseFloat: string -> Option<real>, s: Row): real
    requires |s| > 0 && parseFloat(s[0]).Some?
  {
    parseFloat(s[0]).value
  }

  function End(parseFloat: string -> Option<real>, s: Row): real
    requires |s| > 1 && parseFloat(s[1]).Some?
  {
    parseFloat(s[1]).value
  }

  /** EPIC times never decrease. */
  predicate Ascending(parseFloat: string -> Option<real>, epic: seq<Row>)
    requires EpicReady(parseFloat, epic)
  {
    forall a, b | 0 <= a < b < |epic| :: Time(parseFloat, epic[a]) <= Time(parseFloat, epic[b])
  }

  /** Each site interval has its start at or before its end, and the
      intervals are in order and do not touch. */
  predicate Disjoint(parseFloat: string -> Option<real>, site: seq<Row>)
    requires SiteReady(parseFloat, site)
  {
    && (forall k | 0 <= k < |site| :: Start(parseFloat, site[k]) <= End(parseFloat, site[k]))
    && (forall a, b | 0 <= a < b < |site| :: End(parseFloat, site[a]) < Start(parseFloat, site[b]))
  }

  /** The first EPIC row at or after position k whose time lies in `s`. */
  function FirstWithin(parseFloat: string -> Option<real>, epic: seq<Row>, k: nat, s: Row): (r: Option<nat>)
    ensures r.Some? ==> k <= r.value < |epic| && Within(parseFloat, epic[r.value], s)
    ensures r.Some? ==> forall m | k <= m < r.value :: !Within(parseFloat, epic[m], s)
    ensures r.None? ==> forall m | k <= m < |epic| :: !Within(parseFloat, epic[m], s)
    decreases |epic| - k
  {
    if k >= |epic| then None
    else if Within(parseFloat, epic[k], s) then Some(k)
    else FirstWithin(parseFloat, epic, k + 1, s)
  }

  /** Reference result: every site interval, in order, paired with the
      earliest EPIC row whose time it contains, if there is one. */
  function Expected(parseFloat: string -> Option<real>, epic: seq<Row>, site: seq<Row>, j: nat): seq<Match>
    decreases |site| - j
  {
    if j >= |site| then []
    else
      match FirstWithin(parseFloat, epic, 0, site[j])
      case None => Expected(parseFloat, epic, site, j + 1)
      case Some(k) => [Match(k, j)] + Expected(parseFloat, epic, site, j + 1)
  }

  lemma {:induction false} FirstWithinSkips(parseFloat: string -> Option<real>, epic: seq<Row>, k: nat, i: nat, s: Row)
    requires k <= i <= |epic|
    requires forall m | k <= m < i :: !Within(parseFloat, epic[m], s)
    ensures FirstWithin(parseFloat, epic, k, s) == FirstWithin(parseFloat, epic, i, s)
    decreases i - k
  {
    if k < i {
      FirstWithinSkips(parseFloat, epic, k + 1, i, s);
    }
  }

  /** With no EPIC time at or after the start of interval j, nothing is expected from j on. */
  lemma {:induction false} NothingExpected(parseFloat: string -> Option<real>, epic: seq<Row>, site: seq<Row>, j: nat)
    requires EpicReady(parseFloat, epic) && SiteReady(parseFloat, site) && Disjoint(parseFloat, site)
    requires j < |site| ==> forall m | 0 <= m < |epic| :: Time(parseFloat, epic[m]) < Start(parseFloat, site[j])
    ensures Expected(parseFloat, epic, site, j) == []
    decreases |site| - j
  {
    if j < |site| {
      FirstWithinSkips(parseFloat, epic, 0, |epic|, site[j]);
      if j + 1 < |site| {
        assert End(parseFloat, site[j]) < Start(parseFloat, site[j + 1]);
      }
      NothingExpected(parseFloat, epic, site, j + 1);
    }
  }

  /** The loop-invariant form of the completeness theorem: when every EPIC
      row already passed lies before interval j, the rest of the intended
      merge produces exactly the reference pairs for intervals j onward. */
  lemma {:induction false} IntendedFromIsExpected(parseFloat: string -> Option<real>, epic: seq<Row>, site: seq<Row>, i: nat, j: nat)
    requires EpicReady(parseFloat, epic) && Ascending(parseFloat, epic)
    requires SiteReady(parseFloat, site) && Disjoint(parseFloat, site)
    requires i <= |epic| && j <= |site|
    requires j < |site| ==> forall m | 0 <= m < i :: Time(parseFloat, epic[m]) < Start(parseFloat, site[j])
    ensures IntendedFrom(parseFloat, epic, site, i, j) == Done(Expected(parseFloat, epic, site, j))
    decreases |epic| - i + |site| - j
  {
    if j == |site| {
    } else if i == |epic| {
      NothingExpected(parseFloat, epic, site, j);
    } else {
      var e, s := epic[i], site[j];
      FirstWithinSkips(parseFloat, epic, 0, i, s);
      var p := Locate(parseFloat, e, s);
      if Time(parseFloat, e) < Start(parseFloat, s) {
        assert p == Done(Before);
        IntendedFromIsExpected(parseFloat, epic, site, i + 1, j);
      } else if Time(parseFloat, e) <= End(parseFloat, s) {
        assert p == Done(Inside);
        assert FirstWithin(parseFloat, epic, 0, s) == Some(i);
        if j + 1 < |site| {
          assert End(parseFloat, s) < Start(parseFloat, site[j + 1]);
        }
        IntendedFromIsExpected(parseFloat, epic, site, i + 1, j + 1);
      } else {
        assert p == Done(After);
        assert forall m | i <= m < |epic| :: !Within(parseFloat, epic[m], s) by {
          forall m | i <= m < |epic| ensures !Within(parseFloat, epic[m], s) {
            assert Time(parseFloat, epic[i]) <= Time(parseFloat, epic[m]);
          }
        }
        FirstWithinSkips(parseFloat, epic, i, |epic|, s);
        if j + 1 < |site| {
          assert End(parseFloat, s) < Start(parseFloat, site[j + 1]);
        }
        IntendedFromIsExpected(parseFloat, epic, site, i, j + 1);
      }
    }
  }

  /** Completeness of the intended merge: on ascending EPIC times and
      ordered, non-touching site intervals it pairs every interval that
      contains some EPIC time with the earliest such time, and nothing else. */
  lemma IntendedIsComplete(parseFloat: string -> Option<real>, epic: seq<Row>, site: seq<Row>)
    requires EpicReady(parseFloat, epic) && Ascending(parseFloat, epic)
    requires SiteReady(parseFloat, site) && Disjoint(parseFloat, site)
    ensures IntendedFrom(parseFloat, epic, site, 0, 0) == Done(Expected(parseFloat, epic, site, 0))
  {
    IntendedFromIsExpected(parseFloat, epic, site, 0, 0);
  }

  /** On well-formed rows the loop as written never raises: every stamp it
      reads exists and parses, and every matched row has its cells. */
  lemma {:induction false} MatchesFromSucceeds(parseFloat: string -> Option<real>, epic: seq<Row>, site: seq<Row>, i: nat, j: nat)
    requires EpicReady(parseFloat, epic) && SiteReady(parseFloat, site)
    requires i <= |epic| && j <= |site|
    ensures MatchesFrom(parseFloat, epic, site, i, j).Done?
    decreases |site| - j
  {
    if i < |epic| && j < |site| {
      match Locate(parseFloat, epic[i], site[j])
      case Done(After) => MatchesFromSucceeds(parseFloat, epic, site, i, j + 1);
      case Done(Before) => MatchesFromSucceeds(parseFloat, epic, site, i + 1, j + 1);
      case Done(Inside) => MatchesFromSucceeds(parseFloat, epic, site, i + 1, j + 1);
    }
  }

  /** Every pairing interval j with EPIC row k is among the reference
      pairs from interval j0 on, when k is the earliest time in interval j. */
  lemma {:induction false} ExpectedHas(parseFloat: string -> Option<real>, epic: seq<Row>, site: seq<Row>, j0: nat, j: nat, k: nat)
    requires j0 <= j < |site| && FirstWithin(parseFloat, epic, 0, site[j]) == Some(k)
    ensures Match(k, j) in Expected(parseFloat, epic, site, j0)
    decreases j - j0
  {
    if j0 < j {
      ExpectedHas(parseFloat, epic, site, j0 + 1, j, k);
    }
  }

  /** The loop-invariant form of `WrittenPairsExpected`: when every EPIC
      row already passed lies before interval j, each pair the loop as
      written emits from (i, j) on is a reference pair. */
  lemma {:induction false} WrittenFromExpected(parseFloat: string -> Option<real>, epic: seq<Row>, site: seq<Row>, i: nat, j: nat)
    requires EpicReady(parseFloat, epic) && SiteReady(parseFloat, site) && Disjoint(parseFloat, site)
    requires i <= |epic| && j <= |site|
    requires j < |site| ==> forall m | 0 <= m < i :: Time(parseFloat, epic[m]) < Start(parseFloat, site[j])
    ensures var out := MatchesFrom(parseFloat, epic, site, i, j);
            out.Done? && forall k | 0 <= k < |out.value| :: out.value[k] in Expected(parseFloat, epic, site, 0)
    decreases |site| - j
  {
    MatchesFromSucceeds(parseFloat, epic, site, i, j);
    if i < |epic| && j < |site| {
      var e, s := epic[i], site[j];
      if j + 1 < |site| {
        assert End(parseFloat, s) < Start(parseFloat, site[j + 1]);
      }
      match Locate(parseFloat, e, s)
      case Done(Inside) =>
        FirstWithinSkips(parseFloat, epic, 0, i, s);
        assert FirstWithin(parseFloat, epic, 0, s) == Some(i);
        ExpectedHas(parseFloat, epic, site, 0, j, i);
        WrittenFromExpected(parseFloat, epic, site, i + 1, j + 1);
      case Done(Before) =>
        WrittenFromExpected(parseFloat, epic, site, i + 1, j + 1);
      case Done(After) =>
        WrittenFromExpected(parseFloat, epic, site, i, j + 1);
    }
  }

  /** On well-formed rows and ordered, non-touching intervals, the loop as
      written succeeds and emits only reference pairs: each interval it
      pairs gets the earliest EPIC time inside it.  With `IntendedIsComplete`,
      its output is part of the corrected loop's output. */
  lemma WrittenPairsExpected(parseFloat: string -> Option<real>, epic: seq<Row>, site: seq<Row>)
    requires EpicReady(parseFloat, epic) && SiteReady(parseFloat, site) && Disjoint(parseFloat, site)
    ensures MatchesFrom(parseFloat, epic, site, 0, 0).Done?
    ensures forall k | 0 <= k < |MatchesFrom(parseFloat, epic, site, 0, 0).value| ::
              MatchesFrom(parseFloat, epic, site, 0, 0).value[k] in Expected(parseFloat, epic, site, 0)
  {
    WrittenFromExpected(parseFloat, epic, site, 0, 0);
  }

  /** Each EPIC row lies in an interval of its own: `owner[a]` is the
      interval holding row a, and later rows lie in later intervals. */
  predicate OwnIntervals(parseFloat: string -> Option<real>, epic: seq<Row>, site: seq<Row>, owner: seq<nat>) {
    && |owner| == |epic|
    && (forall a | 0 <= a < |epic| :: owner[a] < |site| && Within(parseFloat, epic[a], site[owner[a]]))
    && (forall a, b | 0 <= a < b < |epic| :: owner[a] < owner[b])
  }

  /** The loop-invariant form of `WrittenIsCompleteWhenOwn`: while the site
      cursor has not passed the interval of the next EPIC row, the loop as
      written makes the same moves as the corrected one.  Intervals ahead
      of that row are stale (After), and the site cursor alone moves past
      them; the row's own interval is a match. */
  lemma {:induction false} WrittenFollowsIntended(parseFloat: string -> Option<real>, epic: seq<Row>, site: seq<Row>,
                                                  owner: seq<nat>, i: nat, j: nat)
    requires EpicReady(parseFloat, epic) && SiteReady(parseFloat, site) && Disjoint(parseFloat, site)
    requires OwnIntervals(parseFloat, epic, site, owner)
    requires i <= |epic| && j <= |site|
    requires i < |epic| ==> j <= owner[i]
    ensures MatchesFrom(parseFloat, epic, site, i, j) == IntendedFrom(parseFloat, epic, site, i, j)
    decreases |site| - j
  {
    if i < |epic| && j < |site| {
      var k := owner[i];
      if k == j {
        assert Locate(parseFloat, epic[i], site[j]) == Done(Inside);
        WrittenFollowsIntended(parseFloat, epic, site, owner, i + 1, j + 1);
      } else {
        assert End(parseFloat, site[j]) < Start(parseFloat, site[k]);
        assert Locate(parseFloat, epic[i], site[j]) == Done(After);
        WrittenFollowsIntended(parseFloat, epic, site, owner, i, j + 1);
      }
    }
  }

  /** Completeness of the loop as written, where it holds: when every EPIC
      row lies in an interval of its own, the stale intervals between them
      are skipped one at a time and every reference pair is emitted.  The
      loss of the Findings needs two EPIC rows that share an interval or
      fall outside every interval. */
  lemma WrittenIsCompleteWhenOwn(parseFloat: string -> Option<real>, epic: seq<Row>, site: seq<Row>, owner: seq<nat>)
    requires EpicReady(parseFloat, epic) && SiteReady(parseFloat, site) && Disjoint(parseFloat, site)
    requires OwnIntervals(parseFloat, epic, site, owner)
    ensures MatchesFrom(parseFloat, epic, site, 0, 0) == Done(Expected(parseFloat, epic, site, 0))
  {
    WrittenFollowsIntended(parseFloat, epic, site, owner, 0, 0);
    assert Ascending(parseFloat, epic) by {
      forall a, b | 0 <= a < b < |epic| ensures Time(parseFloat, epic[a]) <= Time(parseFloat, epic[b]) {
        assert End(parseFloat, site[owner[a]]) < Start(parseFloat, site[owner[b]]);
      }
    }
    IntendedIsComplete(parseFloat, epic, site);
  }

  // ---------------------------------------------------------------------
  // Where the two differ
  // ---------------------------------------------------------------------

  /** One step of the defect: when the loop meets an EPIC row before
      interval j, it moves past interval j as well, so interval j is never
      paired, even when the very next EPIC row lies in it; the intended
      merge pairs that next row with interval j. */
  lemma EarlyRowLosesInterval(parseFloat: string -> Option<real>, epic: seq<Row>, site: seq<Row>, i: nat, j: nat)
    requires i + 1 < |epic| && j < |site|
    requires Locate(parseFloat, epic[i], site[j]) == Done(Before)
    requires Within(parseFloat, epic[i + 1], site[j]) && |epic[i + 1]| >= 2 && |site[j]| >= 6
    ensures MatchesFrom(parseFloat, epic, site, i, j) == MatchesFrom(parseFloat, epic, site, i + 1, j + 1)
    ensures var out := MatchesFrom(parseFloat, epic, site, i, j);
            out.Done? ==> forall k | 0 <= k < |out.value| :: out.value[k].site != j
    ensures var out := IntendedFrom(parseFloat, epic, site, i, j);
            out.Done? ==> |out.value| > 0 && out.value[0] == Match(i + 1, j)
  {
    assert Locate(parseFloat, epic[i + 1], site[j]) == Done(Inside);
  }

  /** The defect over a whole run: EPIC times t0, t1, t2 and intervals
      I0, I1 with t0 in I0, t1 strictly between them and t2 in I1.  The
      loop as written pairs only t0 with I0; the intended merge, like the
      reference, also pairs t2 with I1. */
  lemma {:induction false} GapLosesInterval(parseFloat: string -> Option<real>, epic: seq<Row>, site: seq<Row>)
    requires |epic| == 3 && |site| == 2
    requires EpicReady(parseFloat, epic) && SiteReady(parseFloat, site)
    requires Within(parseFloat, epic[0], site[0]) && Within(parseFloat, epic[2], site[1])
    requires End(parseFloat, site[0]) < Time(parseFloat, epic[1]) < Start(parseFloat, site[1])
    ensures MatchesFrom(parseFloat, epic, site, 0, 0) == Done([Match(0, 0)])
    ensures Expected(parseFloat, epic, site, 0) == [Match(0, 0), Match(2, 1)]
    ensures IntendedFrom(parseFloat, epic, site, 0, 0) == Done([Match(0, 0), Match(2, 1)])
  {
    assert Locate(parseFloat, epic[0], site[0]) == Done(Inside);
    assert Locate(parseFloat, epic[1], site[1]) == Done(Before);
    assert MatchesFrom(parseFloat, epic, site, 1, 1) == Done([]);
    assert [Match(0, 0)] + [] == [Match(0, 0)];
    assert FirstWithin(parseFloat, epic, 0, site[0]) == Some(0);
    assert !Within(parseFloat, epic[0], site[1]) && !Within(parseFloat, epic[1], site[1]);
    assert FirstWithin(parseFloat, epic, 0, site[1]) == Some(2) by {
      assert FirstWithin(parseFloat, epic, 2, site[1]) == Some(2);
    }
    assert Expected(parseFloat, epic, site, 1) == [Match(2, 1)] by {
      assert Expected(parseFloat, epic, site, 2) == [];
    }
    assert Ascending(parseFloat, epic);
    assert Disjoint(parseFloat, site);
    IntendedIsComplete(parseFloat, epic, site);
  }

  /** `float()` on integer text, enough for the worked example below. */
  function IntegerFloat(s: string): Option<real> {
    match Text.ParseInt(s)
    case Some(n) => Some(n as real)
    case None => None
  }

  /** `float()` of three-digit integer text. */
  lemma ThreeDigits(s: string, n: nat)
    requires |s| == 3 && Text.AllDigits(s)
    requires n == Text.DigitValue(s[0]) * 100 + Text.DigitValue(s[1]) * 10 + Text.DigitValue(s[2])
    ensures IntegerFloat(s) == Some(n as real)
  {
    assert !Text.IsSign(s[0]);
    assert s[..2][..1] == s[..1];
    assert s[..1][..0] == [];
    assert Text.DigitsValue(s[..1]) == Text.DigitValue(s[0]);
    assert Text.DigitsValue(s[..2]) == Text.DigitValue(s[0]) * 10 + Text.DigitValue(s[1]);
  }

  const ExampleSite: seq<Row> := [["100", "200", "a", "b", "c", "d"], ["300", "400", "e", "f", "g", "h"]]
  const ExampleEpic: seq<Row> := [["150", "x"], ["250", "y"], ["350", "z"]]

  lemma ExampleTimes()
    ensures IntegerFloat("100") == Some(100.0) && IntegerFloat("200") == Some(200.0)
    ensures IntegerFloat("300") == Some(300.0) && IntegerFloat("400") == Some(400.0)
    ensures IntegerFloat("150") == Some(150.0) && IntegerFloat("250") == Some(250.0)
    ensures IntegerFloat("350") == Some(350.0)
  {
    ThreeDigits("100", 100);
    ThreeDigits("200", 200);
    ThreeDigits("300", 300);
    ThreeDigits("400", 400);
    ThreeDigits("150", 150);
    ThreeDigits("250", 250);
    ThreeDigits("350", 350);
  }

  /** Site intervals [100,200] and [300,400], EPIC times 150, 250, 350: the
      loop as written pairs only 150 with the first interval.  At 250 it
      skips the EPIC row and, unconditionally, the second interval too, so
      350 is never compared with [300,400]; the intended merge pairs both. */
  lemma GapSkipsNextInterval()
    ensures MatchesFrom(IntegerFloat, ExampleEpic, ExampleSite, 0, 0) == Done([Match(0, 0)])
  {
    ExampleTail();
    ExampleTimes();
    assert Locate(IntegerFloat, ExampleEpic[0], ExampleSite[0]) == Done(Inside);
    assert |ExampleEpic[0]| == 2 && |ExampleSite[0]| == 6;
    assert [Match(0, 0)] + [] == [Match(0, 0)];
  }

  /** At (250, [300,400]) the loop as written moves both cursors and stops. */
  lemma ExampleTail()
    ensures MatchesFrom(IntegerFloat, ExampleEpic, ExampleSite, 1, 1) == Done([])
  {
    ExampleTimes();
    assert Locate(IntegerFloat, ExampleEpic[1], ExampleSite[1]) == Done(Before);
  }

  /** A late EPIC time: with 350 alone, the loop as written passes
      [100,200] as stale, moving only the site cursor, and pairs 350 with
      [300,400]. */
  lemma LateRowSkipsStaleInterval()
    ensures MatchesFrom(IntegerFloat, [ExampleEpic[2]], ExampleSite, 0, 0) == Done([Match(0, 1)])
  {
    ExampleTimes();
    var epic := [ExampleEpic[2]];
    assert Locate(IntegerFloat, epic[0], ExampleSite[0]) == Done(After);
    assert Locate(IntegerFloat, epic[0], ExampleSite[1]) == Done(Inside);
    assert |epic[0]| == 2 && |ExampleSite[1]| == 6;
    assert MatchesFrom(IntegerFloat, epic, ExampleSite, 1, 2) == Done([]);
    assert [Match(0, 1)] + [] == [Match(0, 1)];
  }

  const SharedEpic: seq<Row> := [["150", "x"], ["160", "y"], ["350", "z"]]

  /** Two EPIC times in one interval cause the same loss: 150 is paired
      with [100,200]; 160 is then compared with [300,400], lies before it,
      and both cursors move, so 350 is never compared. */
  lemma SharedIntervalSkipsNext()
    ensures MatchesFrom(IntegerFloat, SharedEpic, ExampleSite, 0, 0) == Done([Match(0, 0)])
  {
    ExampleTimes();
    ThreeDigits("160", 160);
    assert Locate(IntegerFloat, SharedEpic[1], ExampleSite[1]) == Done(Before);
    assert MatchesFrom(IntegerFloat, SharedEpic, ExampleSite, 1, 1) == Done([]);
    assert Locate(IntegerFloat, SharedEpic[0], ExampleSite[0]) == Done(Inside);
    assert |SharedEpic[0]| == 2 && |ExampleSite[0]| == 6;
    assert [Match(0, 0)] + [] == [Match(0, 0)];
  }

  /** On the same input the intended merge pairs 150 with [100,200] and
      350 with [300,400]. */
  lemma IntendedPairsBoth()
    ensures IntendedFrom(IntegerFloat, ExampleEpic, ExampleSite, 0, 0) == Done([Match(0, 0), Match(2, 1)])
  {
    IntendedExampleTail();
    ExampleTimes();
    assert Locate(IntegerFloat, ExampleEpic[0], ExampleSite[0]) == Done(Inside);
    assert |ExampleEpic[0]| == 2 && |ExampleSite[0]| == 6;
    assert [Match(0, 0)] + [Match(2, 1)] == [Match(0, 0), Match(2, 1)];
  }

  /** From (250, [300,400]) the intended merge skips 250 alone, then pairs 350. */
  lemma IntendedExampleTail()
    ensures IntendedFrom(IntegerFloat, ExampleEpic, ExampleSite, 1, 1) == Done([Match(2, 1)])
  {
    ExampleTimes();
    assert IntendedFrom(IntegerFloat, ExampleEpic, ExampleSite, 3, 2) == Done([]);
    assert Locate(IntegerFloat, ExampleEpic[2], ExampleSite[1]) == Done(Inside);
    assert |ExampleEpic[2]| == 2 && |ExampleSite[1]| == 6;
    assert [Match(2, 1)] + [] == [Match(2, 1)];
    assert IntendedFrom(IntegerFloat, ExampleEpic, ExampleSite, 2, 1) == Done([Match(2, 1)]);
    assert Locate(IntegerFloat, ExampleEpic[1], ExampleSite[1]) == Done(Before);
  }

}

=== FILE: outcomes.dfy ===
/** Shared vocabulary: CSV rows, optional values, and the Python exceptions
    that the cleaning and merging code either catches or lets escape. */
module Outcomes {

  /** One CSV record: the list of cell strings `csv.reader` yields. */
  type Row = seq<string>

  datatype Option<+T> = None | Some(value: T)

  /** The exceptions the modelled code can raise. */
  datatype Fault =
    | IndexError          // a column or list position that does not exist
    | ValueError          // int()/float()/datetime() rejected its argument
    | ZeroDivisionError   // the vegetation index with band sum zero
    | OverflowError       // a shifted date past year 9999
    | StopIteration       // next() on an exhausted CSV reader

  /** Result of evaluating a piece of Python: a value, or the exception it raised. */
  datatype Outcome<+T> = Done(value: T) | Raised(fault: Fault)


  /** Rows one input row contributes to an output file: nothing when dropped. */
  function Emitted(o: Option<Row>): seq<Row> {
    match o
    case None => []
    case Some(row) => [row]
  }

  /** Two runs over consecutive parts of a file, one after the other: the
      first exception ends everything, otherwise the outputs are joined. */
  function Then(a: Outcome<seq<Row>>, b: Outcome<seq<Row>>): Outcome<seq<Row>> {
    match a
    case Raised(f) => Raised(f)
    case Done(x) =>
      match b
      case Raised(f) => Raised(f)
      case Done(y) => Done(x + y)
  }

}

=== FILE: site_cleaner.dfy ===
/** `clean_site` (main.py:19-48): the per-row filter and time shift applied
    to the flux-tower file, and the file-level loop around it.

    `parseFloat` stands for Python's `float()` on a cell: None is the
    ValueError it raises, Some(x) the value it returns. */
module SiteCleaner {
  import opened Outcomes
  import opened Text
  import Timestamp

  /** Rows whose start stamp is earlier than this are dropped. */
  const Cutoff := 201501010000

  /** The "missing" marker of the site file. */
  const Sentinel: real := -9999.0

  /** The four measurement columns that are checked and kept. */
  const Tracked: seq<nat> := [17, 18, 34, 43]

  /** The six columns the ValueError fallback writes for a multi-column row. */
  function RawColumns(r: Row): Row
    requires |r| > 43
  {
    [r[0], r[1], r[17], r[18], r[34], r[43]]
  }

  /** The start stamp reads as an integer at or after the cutoff. */
  predicate StartKept(r: Row) {
    |r| > 0 && ParseInt(r[0]).Some? && ParseInt(r[0]).value >= Cutoff
  }

  /** Every listed column exists and reads as a float. */
  predicate Parses(parseFloat: string -> Option<real>, r: Row, cols: seq<nat>) {
    forall k | 0 <= k < |cols| :: cols[k] < |r| && parseFloat(r[cols[k]]).Some?
  }

  /** Some listed column exists and holds the sentinel. */
  predicate HasSentinel(parseFloat: string -> Option<real>, r: Row, cols: seq<nat>) {
    exists k | 0 <= k < |cols| :: cols[k] < |r| && parseFloat(r[cols[k]]) == Some(Sentinel)
  }

  /** Some listed column holds the sentinel, and every column before it
      exists and reads as a float: the chain reaches that sentinel. */
  predicate SentinelFirst(parseFloat: string -> Option<real>, r: Row, cols: seq<nat>) {
    exists k | 0 <= k < |cols| ::
      && cols[k] < |r| && parseFloat(r[cols[k]]) == Some(Sentinel)
      && forall m | 0 <= m < k :: cols[m] < |r| && parseFloat(r[cols[m]]).Some?
  }

  /** The short-circuit chain `float(r[c0]) != -9999 and float(r[c1]) != -9999 and ...`
      (main.py:27-28): evaluated left to right, it is false at the first
      sentinel and raises at the first column that is absent or unparsable. */
  function NoSentinel(parseFloat: string -> Option<real>, r: Row, cols: seq<nat>): (out: Outcome<bool>)
    ensures Parses(parseFloat, r, cols) && HasSentinel(parseFloat, r, cols) ==> out == Done(false)
    ensures Parses(parseFloat, r, cols) && !HasSentinel(parseFloat, r, cols) ==> out == Done(true)
    ensures out == Done(true) ==> Parses(parseFloat, r, cols) && !HasSentinel(parseFloat, r, cols)
    ensures !Parses(parseFloat, r, cols) && !HasSentinel(parseFloat, r, cols) ==> out.Raised?
    ensures out.Raised? ==> !Parses(parseFloat, r, cols)
    ensures out.Raised? && (forall k | 0 <= k < |cols| :: cols[k] < |r|) ==> out == Raised(ValueError)
    // Left to right: false exactly when a sentinel comes before any bad column.
    ensures out == Done(false) <==> SentinelFirst(parseFloat, r, cols)
    decreases |cols|
  {
    if cols == [] then Done(true)
    else if cols[0] >= |r| then Raised(IndexError)
    else
      match parseFloat(r[cols[0]])
      case None => Raised(ValueError)
      case Some(x) =>
        if x == Sentinel then Done(false)
        else
          var rest := NoSentinel(parseFloat, r, cols[1..]);
          PastFirstColumn(parseFloat, r, cols);
          rest
  }

  /** Past a first column that exists, parses and is not the sentinel,
      the chain's three predicates are those of the remaining columns. */
  lemma PastFirstColumn(parseFloat: string -> Option<real>, r: Row, cols: seq<nat>)
    requires cols != [] && cols[0] < |r| && parseFloat(r[cols[0]]).Some?
    requires parseFloat(r[cols[0]]) != Some(Sentinel)
    ensures SentinelFirst(parseFloat, r, cols) <==> SentinelFirst(parseFloat, r, cols[1..])
    ensures HasSentinel(parseFloat, r, cols) <==> HasSentinel(parseFloat, r, cols[1..])
    ensures Parses(parseFloat, r, cols) <==> Parses(parseFloat, r, cols[1..])
  {
  }

  /** The body of the `try` block, main.py:26-43. */
  function TryRow(parseFloat: string -> Option<real>, r: Row): Outcome<Option<Row>> {
    if |r| == 0 then Raised(IndexError)
    else
      match ParseInt(r[0])
      case None => Raised(ValueError)
      case Some(start) =>
        if start < Cutoff then Done(None)
        else
          match NoSentinel(parseFloat, r, Tracked)
          case Raised(f) => Raised(f)
          case Done(keep) =>
            if !keep then Done(None)
            else
              assert Tracked[3] < |r|;
              match Timestamp.ShiftStamp(r[0])
              case Raised(f) => Raised(f)
              case Done(newStart) =>
                match Timestamp.ShiftStamp(r[1])
                case Raised(f) => Raised(f)
                case Done(newEnd) => Done(Some([newStart, newEnd, r[17], r[18], r[34], r[43]]))
  }

  /** One row of `clean_site`: the `try` block, and on ValueError the
      `except` branch (main.py:44-48), which may itself raise IndexError.
      None means the row is dropped. */
  function CleanSiteRow(parseFloat: string -> Option<real>, r: Row): (out: Outcome<Option<Row>>)
    // An empty row fails on r[0] outside any handler.
    ensures |r| == 0 ==> out == Raised(IndexError)
    // Cutoff filter: only the start column is consulted.
    ensures |r| > 0 && ParseInt(r[0]).Some? && ParseInt(r[0]).value < Cutoff ==> out == Done(None)
    // A start that is not an integer: header or marker row, passed through.
    ensures |r| == 1 && ParseInt(r[0]).None? ==> out == Done(Some(r))
    ensures |r| > 43 && ParseInt(r[0]).None? ==> out == Done(Some(RawColumns(r)))
    ensures 1 < |r| <= 43 && ParseInt(r[0]).None? ==> out == Raised(IndexError)
    // Sentinel filter.
    ensures (StartKept(r) && Parses(parseFloat, r, Tracked) && HasSentinel(parseFloat, r, Tracked))
            ==> out == Done(None)
    // The chain short-circuits left to right: a sentinel ahead of every
    // unparsable field drops the row, and a bad field ahead of every
    // sentinel gives the fallback.
    ensures StartKept(r) && SentinelFirst(parseFloat, r, Tracked) ==> out == Done(None)
    ensures (StartKept(r) && |r| > 43 && !Parses(parseFloat, r, Tracked) && !SentinelFirst(parseFloat, r, Tracked))
            ==> out == Done(Some(RawColumns(r)))
    // A short row with no sentinel ahead of its missing columns fails on a
    // missing column, in the chain or in the fallback.
    ensures StartKept(r) && |r| <= 43 && !SentinelFirst(parseFloat, r, Tracked) ==> out == Raised(IndexError)
    // A kept row: both stamps shifted, the four fields copied.
    ensures (&& StartKept(r) && |r| > 43
             && Parses(parseFloat, r, Tracked) && !HasSentinel(parseFloat, r, Tracked)
             && Timestamp.ShiftStamp(r[0]).Done? && Timestamp.ShiftStamp(r[1]).Done?)
            ==> out == Done(Some([Timestamp.ShiftStamp(r[0]).value, Timestamp.ShiftStamp(r[1]).value,
                                  r[17], r[18], r[34], r[43]]))
    // Unparsable measurements or an invalid calendar date: the same fallback as a header.
    ensures (StartKept(r) && |r| > 43 && !Parses(parseFloat, r, Tracked) && !HasSentinel(parseFloat, r, Tracked))
            ==> out == Done(Some(RawColumns(r)))
    ensures (&& StartKept(r) && |r| > 43
             && Parses(parseFloat, r, Tracked) && !HasSentinel(parseFloat, r, Tracked)
             && (|| Timestamp.Decode(r[0]).None?
                 || (Timestamp.ShiftStamp(r[0]).Done? && Timestamp.Decode(r[1]).None?)))
            ==> out == Done(Some(RawColumns(r)))
    // What comes out is a 6-column row or an untouched single-column row.
    ensures out.Done? && out.value.Some? ==> |out.value.value| == 6 || (|r| == 1 && out.value.value == r)
    // The only errors that escape are a missing column and a date past year 9999.
    ensures out.Raised? ==> out.fault == IndexError || out.fault == OverflowError
  {
    match TryRow(parseFloat, r)
    case Raised(ValueError) =>
      if |r| > 1 then
        if |r| > 43 then Done(Some(RawColumns(r))) else Raised(IndexError)
      else Done(Some(r))
    case other => other
  }

  /** The loop `for r in source` of `clean_site`: rows are written in input
      order, and the first escaping exception ends the run. */
  function CleanSite(parseFloat: string -> Option<real>, rows: seq<Row>): (out: Outcome<seq<Row>>)
    ensures out.Done? <==> forall k | 0 <= k < |rows| :: CleanSiteRow(parseFloat, rows[k]).Done?
    ensures out.Done? ==> |out.value| <= |rows|
    ensures out.Done? ==> forall k | 0 <= k < |out.value| :: |out.value[k]| == 6 || |out.value[k]| == 1
    // Every row a row cleaning keeps reaches the file.
    ensures out.Done? ==>
              forall k, x | 0 <= k < |rows| && CleanSiteRow(parseFloat, rows[k]) == Done(Some(x)) :: x in out.value
    decreases |rows|
  {
    if rows == [] then Done([])
    else
      match CleanSiteRow(parseFloat, rows[0])
      case Raised(f) => Raised(f)
      case Done(o) =>
        match CleanSite(parseFloat, rows[1..])
        case Raised(f) => Raised(f)
        case Done(rest) => Done(Emitted(o) + rest)
  }

  /** A one-row file holds what cleaning that row gives. */
  lemma CleanSiteOne(parseFloat: string -> Option<real>, r: Row)
    ensures CleanSiteRow(parseFloat, r).Raised? ==> CleanSite(parseFloat, [r]) == Raised(CleanSiteRow(parseFloat, r).fault)
    ensures CleanSiteRow(parseFloat, r).Done? ==> CleanSite(parseFloat, [r]) == Done(Emitted(CleanSiteRow(parseFloat, r).value))
  {
    assert [r][1..] == [];
    var o := CleanSiteRow(parseFloat, r);
    if o.Done? {
      assert Emitted(o.value) + [] == Emitted(o.value);
    }
  }

  /** Cleaning is row by row and order preserving: the output for a file
      split in two is the output for the first part followed by the output
      for the second. */
  lemma {:induction false} CleanSiteSplits(parseFloat: string -> Option<real>, a: seq<Row>, b: seq<Row>)
    ensures CleanSite(parseFloat, a + b) == Then(CleanSite(parseFloat, a), CleanSite(parseFloat, b))
    decreases |a|
  {
    if a == [] {
      assert a + b == b;
      var whole := CleanSite(parseFloat, b);
      if whole.Done? {
        assert [] + whole.value == whole.value;
      }
    } else {
      var ab := a + b;
      assert ab[0] == a[0];
      assert ab[1..] == a[1..] + b;
      CleanSiteSplits(parseFloat, a[1..], b);
      var head := CleanSiteRow(parseFloat, a[0]);
      var tail := CleanSite(parseFloat, a[1..]);
      var whole := CleanSite(parseFloat, b);
      assert CleanSite(parseFloat, ab[1..]) == Then(tail, whole);
      if head.Done? && tail.Done? && whole.Done? {
        assert Emitted(head.value) + (tail.value + whole.value)
            == (Emitted(head.value) + tail.value) + whole.value;
      }
    }
  }

}

=== FILE: text.dfy ===
/** The Python string and integer primitives the cleaners rely on:
    `int(s)` on decimal text, `str(n)` of a natural, slicing with clamped
    bounds, and `str.zfill`. */
module Text {
  import opened Outcomes

  predicate IsDigit(c: char) {
    '0' <= c <= '9'
  }

  predicate IsSign(c: char) {
    c == '+' || c == '-'
  }

  predicate AllDigits(s: string) {
    forall k | 0 <= k < |s| :: IsDigit(s[k])
  }

  function DigitValue(c: char): nat
    requires IsDigit(c)
  {
    (c as int) - ('0' as int)
  }

  function DigitChar(d: nat): (c: char)
    requires d < 10
    ensures IsDigit(c) && DigitValue(c) == d
  {
    (('0' as int) + d) as char
  }

  /** Value of a string of decimal digits, most significant digit first. */
  function DigitsValue(s: string): nat
    requires AllDigits(s)
    decreases |s|
  {
    if s == [] then 0 else DigitsValue(s[..|s| - 1]) * 10 + DigitValue(s[|s| - 1])
  }

  /** Python's `int(s)` in base 10: an optional sign followed by one or more
      ASCII digits; anything else raises ValueError, modelled as None. */
  function ParseInt(s: string): Option<int> {
    if |s| > 0 && IsSign(s[0]) then
      var body := s[1..];
      if |body| > 0 && AllDigits(body) then
        var v: int := DigitsValue(body);
        Some(if s[0] == '-' then -v else v)
      else None
    else if |s| > 0 && AllDigits(s) then Some(DigitsValue(s))
    else None
  }

  /** Python's `str(n)` for a non-negative integer: no sign, no leading zero. */
  function Decimal(n: nat): (s: string)
    ensures |s| > 0 && AllDigits(s)
    ensures n > 0 ==> s[0] != '0'
    decreases n
  {
    if n < 10 then [DigitChar(n)] else Decimal(n / 10) + [DigitChar(n % 10)]
  }

  /** `s[lo:hi]` with Python's clamping of out-of-range bounds. */
  function Slice(s: string, lo: nat, hi: nat): (r: string)
    requires lo <= hi
    ensures |s| >= hi ==> r == s[lo..hi]
    ensures |s| <= lo ==> r == []
  {
    var a := if lo < |s| then lo else |s|;
    var b := if hi < |s| then hi else |s|;
    s[a..b]
  }

  function Pow10(k: nat): nat {
    if k == 0 then 1 else 10 * Pow10(k - 1)
  }

  function Zeros(k: nat): (z: string)
    ensures |z| == k && forall i | 0 <= i < k :: z[i] == '0'
  {
    seq(k, _ => '0')
  }

  /** Python's `s.zfill(width)`: pad on the left with '0' up to `width`
      characters, keeping a leading sign in front of the padding. */
  function ZFill(s: string, width: nat): (r: string)
    ensures |r| == if |s| >= width then |s| else width
    ensures |s| >= width ==> r == s
    ensures |s| < width && (|s| == 0 || !IsSign(s[0])) ==>
              r[width - |s|..] == s && forall i | 0 <= i < width - |s| :: r[i] == '0'
    ensures |s| < width && |s| > 0 && IsSign(s[0]) ==>
              r[0] == s[0] && r[width - |s| + 1..] == s[1..]
              && forall i | 1 <= i <= width - |s| :: r[i] == '0'
  {
    if |s| >= width then s
    else if |s| > 0 && IsSign(s[0]) then [s[0]] + Zeros(width - |s|) + s[1..]
    else Zeros(width - |s|) + s
  }

  // ---------------------------------------------------------------------
  // Round trips between the parser and the printers
  // ---------------------------------------------------------------------

  lemma {:induction false} DigitsOfDecimal(n: nat)
    ensures DigitsValue(Decimal(n)) == n
    decreases n
  {
    if n >= 10 {
      var s := Decimal(n);
      assert s[..|s| - 1] == Decimal(n / 10);
      DigitsOfDecimal(n / 10);
    }
  }

  /** Leading zeros do not change the value of a digit string. */
  lemma {:induction false} LeadingZeros(k: nat, s: string)
    requires AllDigits(s)
    ensures AllDigits(Zeros(k) + s) && DigitsValue(Zeros(k) + s) == DigitsValue(s)
    decreases |s|
  {
    var t := Zeros(k) + s;
    assert AllDigits(t) by {
      forall i | 0 <= i < |t| ensures IsDigit(t[i]) {
        if i >= k { assert t[i] == s[i - k]; }
      }
    }
    if s == [] {
      assert t == Zeros(k);
      ZerosValue(k);
    } else {
      var p := s[..|s| - 1];
      assert t[..|t| - 1] == Zeros(k) + p;
      LeadingZeros(k, p);
    }
  }

  lemma {:induction false} ZerosValue(k: nat)
    ensures AllDigits(Zeros(k)) && DigitsValue(Zeros(k)) == 0
    decreases k
  {
    if k > 0 {
      assert Zeros(k)[..k - 1] == Zeros(k - 1);
      ZerosValue(k - 1);
    }
  }

  /** Writing digit strings side by side multiplies the value of the first
      by ten to the length of the second. */
  lemma {:induction false} DigitsConcat(a: string, b: string)
    requires AllDigits(a) && AllDigits(b)
    ensures AllDigits(a + b)
    ensures DigitsValue(a + b) == DigitsValue(a) * Pow10(|b|) + DigitsValue(b)
    decreases |b|
  {
    var t := a + b;
    assert AllDigits(t) by {
      forall i | 0 <= i < |t| ensures IsDigit(t[i]) {
        if i >= |a| { assert t[i] == b[i - |a|]; }
      }
    }
    if b == [] {
      assert t == a;
    } else {
      var p := b[..|b| - 1];
      assert t[..|t| - 1] == a + p;
      assert t[|t| - 1] == b[|b| - 1];
      DigitsConcat(a, p);
      ShiftDigit(DigitsValue(a), Pow10(|p|), DigitsValue(p), DigitValue(b[|b| - 1]));
    }
  }

  /** Two digits appended to a digit string. */
  lemma AppendTwoDigits(a: string, b: string)
    requires AllDigits(a) && AllDigits(b) && |b| == 2
    ensures AllDigits(a + b) && DigitsValue(a + b) == DigitsValue(a) * 100 + DigitsValue(b)
  {
    DigitsConcat(a, b);
    assert Pow10(2) == 100;
  }

  /** The value of a digit string followed by four two-digit fields. */
  lemma FieldsValue(y: string, mo: string, d: string, h: string, mi: string)
    requires AllDigits(y) && AllDigits(mo) && AllDigits(d) && AllDigits(h) && AllDigits(mi)
    requires |mo| == 2 && |d| == 2 && |h| == 2 && |mi| == 2
    ensures AllDigits(y + mo + d + h + mi)
    ensures DigitsValue(y + mo + d + h + mi)
            == DigitsValue(y) * 100000000 + DigitsValue(mo) * 1000000 + DigitsValue(d) * 10000
               + DigitsValue(h) * 100 + DigitsValue(mi)
  {
    AppendTwoDigits(y, mo);
    AppendTwoDigits(y + mo, d);
    AppendTwoDigits(y + mo + d, h);
    AppendTwoDigits(y + mo + d + h, mi);
  }

  /** `int()` of a digit string followed by four two-digit fields. */
  lemma ParseFields(y: string, mo: string, d: string, h: string, mi: string)
    requires |y| > 0 && AllDigits(y) && AllDigits(mo) && AllDigits(d) && AllDigits(h) && AllDigits(mi)
    requires |mo| == 2 && |d| == 2 && |h| == 2 && |mi| == 2
    ensures ParseInt(y + mo + d + h + mi)
            == Some(DigitsValue(y) * 100000000 + DigitsValue(mo) * 1000000 + DigitsValue(d) * 10000
                    + DigitsValue(h) * 100 + DigitsValue(mi))
  {
    FieldsValue(y, mo, d, h, mi);
    var s := y + mo + d + h + mi;
    assert s[0] == y[0] && IsDigit(y[0]);
  }

  /** Appending a digit to both sides of the concatenation rule. */
  lemma ShiftDigit(x: int, p: int, y: int, d: int)
    ensures (x * p + y) * 10 + d == x * (10 * p) + (y * 10 + d)
  {
  }

  /** `int(str(n)) == n`. */
  lemma ParseDecimal(n: nat)
    ensures ParseInt(Decimal(n)) == Some(n)
  {
    DigitsOfDecimal(n);
  }

  /** `zfill` never changes the integer a string denotes: whenever `int(s)`
      succeeds, `int(s.zfill(w))` succeeds with the same value. */
  lemma ZFillKeepsValue(s: string, width: nat)
    requires ParseInt(s).Some?
    ensures ParseInt(ZFill(s, width)) == ParseInt(s)
  {
    if |s| < width {
      var k := width - |s|;
      if IsSign(s[0]) {
        var body := s[1..];
        LeadingZeros(k, body);
        var r := ZFill(s, width);
        assert r[1..] == Zeros(k) + body;
      } else {
        LeadingZeros(k, s);
      }
    }
  }

  lemma DecimalLength(n: nat)
    ensures n < 10 ==> |Decimal(n)| == 1
    ensures 10 <= n < 100 ==> |Decimal(n)| == 2
    ensures 1000 <= n < 10000 ==> |Decimal(n)| == 4
  {
    if n >= 10 {
      DecimalLength(n / 10);
      if n >= 1000 {
        DecimalLength(n / 100);
        DecimalLength(n / 1000);
      }
    }
  }

  /** `str(n).zfill(2)` for n < 100 is exactly two digits denoting n. */
  lemma TwoDigits(n: nat)
    requires n < 100
    ensures |ZFill(Decimal(n), 2)| == 2
    ensures ParseInt(ZFill(Decimal(n), 2)) == Some(n)
    ensures AllDigits(ZFill(Decimal(n), 2)) && DigitsValue(ZFill(Decimal(n), 2)) == n
  {
    DecimalLength(n);
    ParseDecimal(n);
    ZFillKeepsValue(Decimal(n), 2);
    DigitsOfDecimal(n);
    if n < 10 {
      LeadingZeros(1, Decimal(n));
    }
  }

}

=== FILE: timestamp.dfy ===
/** The 12-character `YYYYMMDDHHmm` timestamps of the site file: reading one
    into a date-time (main.py slices the string and calls `int` on each
    piece), writing a date-time back (year with `str`, the other four parts
    with `str(...).zfill(2)`), and the eight-hour shift composed of both. */
module Timestamp {
  import opened Outcomes
  import opened Text
  import opened Calendar

  /** `datetime(int(s[0:4]), int(s[4:6]), int(s[6:8]), int(s[8:10]), int(s[10:12]))`;
      None stands for the ValueError of an unparsable piece or an invalid date. */
  function Decode(s: string): Option<DateTime> {
    var y, mo, d, h, mi :=
      ParseInt(Slice(s, 0, 4)), ParseInt(Slice(s, 4, 6)), ParseInt(Slice(s, 6, 8)),
      ParseInt(Slice(s, 8, 10)), ParseInt(Slice(s, 10, 12));
    if y.Some? && mo.Some? && d.Some? && h.Some? && mi.Some? then
      MakeDateTime(y.value, mo.value, d.value, h.value, mi.value)
    else None
  }

  /** `str(t.year) + str(t.month).zfill(2) + ... + str(t.minute).zfill(2)`. */
  function Encode(dt: DateTime): string
    requires Valid(dt)
  {
    Decimal(dt.year) + ZFill(Decimal(dt.month), 2) + ZFill(Decimal(dt.day), 2)
    + ZFill(Decimal(dt.hour), 2) + ZFill(Decimal(dt.minute), 2)
  }

  /** Where the five fields of a written stamp sit. */
  lemma FieldsOfStamp(y: string, mo: string, d: string, h: string, mi: string)
    requires |y| == 4 && |mo| == 2 && |d| == 2 && |h| == 2 && |mi| == 2
    ensures var s := y + mo + d + h + mi;
            && |s| == 12
            && Slice(s, 0, 4) == y && Slice(s, 4, 6) == mo && Slice(s, 6, 8) == d
            && Slice(s, 8, 10) == h && Slice(s, 10, 12) == mi
  {
    var s := y + mo + d + h + mi;
    assert s[0..4] == y;
    assert s[4..6] == mo;
    assert s[6..8] == d;
    assert s[8..10] == h;
    assert s[10..12] == mi;
  }

  /** The re-encoding of a date-time whose year has four digits is a
      12-character stamp that reads back as the same date-time. */
  lemma EncodeDecode(dt: DateTime)
    requires Valid(dt) && dt.year >= 1000
    ensures |Encode(dt)| == 12
    ensures Decode(Encode(dt)) == Some(dt)
  {
    var y := Decimal(dt.year);
    var mo, d := ZFill(Decimal(dt.month), 2), ZFill(Decimal(dt.day), 2);
    var h, mi := ZFill(Decimal(dt.hour), 2), ZFill(Decimal(dt.minute), 2);
    DecimalLength(dt.year);
    ParseDecimal(dt.year);
    TwoDigits(dt.month);
    TwoDigits(dt.day);
    TwoDigits(dt.hour);
    TwoDigits(dt.minute);
    FieldsOfStamp(y, mo, d, h, mi);
    assert Encode(dt) == y + mo + d + h + mi;
  }

  /** Lines 29-35 (and 36-42 for the end stamp): parse, add eight hours,
      re-encode.  An unreadable stamp or invalid date is a ValueError; a
      result past year 9999 is an OverflowError. */
  function ShiftStamp(s: string): (r: Outcome<string>)
    ensures r.Raised? ==> r.fault == ValueError || r.fault == OverflowError
    ensures r.Raised? && r.fault == ValueError <==> Decode(s).None?
  {
    match Decode(s)
    case None => Raised(ValueError)
    case Some(dt) =>
      match AddEightHours(dt)
      case Raised(f) => Raised(f)
      case Done(t) => Done(Encode(t))
  }

  /** A shifted stamp denotes the instant exactly eight hours after the
      original one; when its year has four digits it is again a 12-character
      stamp. */
  lemma ShiftStampIsEightHoursLater(s: string)
    requires ShiftStamp(s).Done?
    ensures Decode(s).Some?
    ensures var t := AddEightHours(Decode(s).value).value;
            t.year >= 1000 ==>
              && |ShiftStamp(s).value| == 12
              && Decode(ShiftStamp(s).value).Some?
              && Minutes(Decode(ShiftStamp(s).value).value) == Minutes(Decode(s).value) + ShiftMinutes
  {
    var dt := Decode(s).value;
    var t := AddEightHours(dt).value;
    EightHoursLater(dt);
    if t.year >= 1000 {
      EncodeDecode(t);
    }
  }

  /** The two years of the examples below, written with `str`. */
  lemma ExampleYears()
    ensures Decimal(2015) == "2015" && Decimal(2016) == "2016"
  {
    assert Decimal(20) == Decimal(2) + ['0'];
    assert Decimal(201) == Decimal(20) + ['1'];
    assert Decimal(2015) == Decimal(201) + ['5'];
    assert Decimal(2016) == Decimal(201) + ['6'];
  }

  /** The two-digit fields of the examples below, written with `zfill(2)`. */
  lemma ExampleFields()
    ensures ZFill(Decimal(0), 2) == "00" && ZFill(Decimal(1), 2) == "01"
    ensures ZFill(Decimal(3), 2) == "03" && ZFill(Decimal(8), 2) == "08"
    ensures ZFill(Decimal(12), 2) == "12" && ZFill(Decimal(19), 2) == "19"
    ensures ZFill(Decimal(31), 2) == "31"
  {
    assert Decimal(12) == Decimal(1) + ['2'];
    assert Decimal(19) == Decimal(1) + ['9'];
    assert Decimal(31) == Decimal(3) + ['1'];
  }

  /** Shifting a written stamp is writing the shifted date-time. */
  lemma ShiftEncoded(dt: DateTime)
    requires Valid(dt) && dt.year >= 1000
    ensures AddEightHours(dt).Done? ==> ShiftStamp(Encode(dt)) == Done(Encode(AddEightHours(dt).value))
    ensures AddEightHours(dt).Raised? ==> ShiftStamp(Encode(dt)) == Raised(OverflowError)
  {
    EncodeDecode(dt);
  }

  /** A stamp written from given field texts. */
  lemma EncodeOf(dt: DateTime, y: string, mo: string, d: string, h: string, mi: string)
    requires Valid(dt) && Decimal(dt.year) == y
    requires ZFill(Decimal(dt.month), 2) == mo && ZFill(Decimal(dt.day), 2) == d
    requires ZFill(Decimal(dt.hour), 2) == h && ZFill(Decimal(dt.minute), 2) == mi
    ensures Encode(dt) == y + mo + d + h + mi
  {
  }

  /** A plain shift within a day, a worked example. */
  lemma ShiftExample()
    ensures ShiftStamp("201501010000") == Done("201501010800")
  {
    var s := "201501010000";
    var a, t := DateTime(2015, 1, 1, 0, 0), DateTime(2015, 1, 1, 8, 0);
    ExampleYears();
    ExampleFields();
    EncodeOf(a, "2015", "01", "01", "00", "00");
    EncodeOf(t, "2015", "01", "01", "08", "00");
    assert "2015" + "01" + "01" + "00" + "00" == s;
    assert "2015" + "01" + "01" + "08" + "00" == "201501010800";
    assert AddEightHours(a) == Done(t);
    ShiftEncoded(a);
  }

  /** A shift across the end of a year, the other worked example. */
  lemma YearEndShiftExample()
    ensures ShiftStamp("201512311900") == Done("201601010300")
  {
    var s := "201512311900";
    var a, t := DateTime(2015, 12, 31, 19, 0), DateTime(2016, 1, 1, 3, 0);
    ExampleYears();
    ExampleFields();
    EncodeOf(a, "2015", "12", "31", "19", "00");
    EncodeOf(t, "2016", "01", "01", "03", "00");
    assert "2015" + "12" + "31" + "19" + "00" == s;
    assert "2016" + "01" + "01" + "03" + "00" == "201601010300";
    assert AddEightHours(a) == Done(t);
    ShiftEncoded(a);
  }

  // ---------------------------------------------------------------------
  // Stamps compared as numbers
  // ---------------------------------------------------------------------

  /** The number a stamp denotes: the five fields written side by side. */
  function StampValue(dt: DateTime): int {
    dt.year * 100000000 + dt.month * 1000000 + dt.day * 10000 + dt.hour * 100 + dt.minute
  }

  /** Read as a single integer, a written stamp is its fields side by side. */
  lemma EncodeValue(dt: DateTime)
    requires Valid(dt) && dt.year >= 1000
    ensures ParseInt(Encode(dt)) == Some(StampValue(dt))
  {
    var y := Decimal(dt.year);
    var mo, d := ZFill(Decimal(dt.month), 2), ZFill(Decimal(dt.day), 2);
    var h, mi := ZFill(Decimal(dt.hour), 2), ZFill(Decimal(dt.minute), 2);
    DigitsOfDecimal(dt.year);
    TwoDigits(dt.month);
    TwoDigits(dt.day);
    TwoDigits(dt.hour);
    TwoDigits(dt.minute);
    ParseFields(y, mo, d, h, mi);
    assert Encode(dt) == y + mo + d + h + mi;
  }

  /** Stamp values are ordered as the instants they denote. */
  lemma StampValueOrder(a: DateTime, b: DateTime)
    requires Valid(a) && Valid(b)
    ensures StampValue(a) < StampValue(b) <==> Minutes(a) < Minutes(b)
    ensures StampValue(a) <= StampValue(b) <==> Minutes(a) <= Minutes(b)
  {
    EarlierIsSooner(a, b);
    EarlierIsSooner(b, a);
    assert StampValue(a) < StampValue(b) <==> Earlier(a, b);
    assert StampValue(b) < StampValue(a) <==> Earlier(b, a);
  }

  /** Comparing two written stamps as numbers, as the merge does, compares
      the instants they denote. */
  lemma StampOrderIsTimeOrder(a: DateTime, b: DateTime)
    requires Valid(a) && Valid(b) && a.year >= 1000 && b.year >= 1000
    ensures ParseInt(Encode(a)).Some? && ParseInt(Encode(b)).Some?
    ensures ParseInt(Encode(a)).value < ParseInt(Encode(b)).value <==> Minutes(a) < Minutes(b)
    ensures ParseInt(Encode(a)).value <= ParseInt(Encode(b)).value <==> Minutes(a) <= Minutes(b)
  {
    EncodeValue(a);
    EncodeValue(b);
    StampValueOrder(a, b);
  }

}
